=== FILE: README.md ===
# Pool client game rules in Dafny

This project models the game-rule and collision-bookkeeping layer of a two-player
browser pool game (`public/script.js`). It covers:

- the per-frame tick of the physics (`updateBalls`): spin coupling, translation with
  friction, the cushions (`wallCollision`) and the sweep over every pair of balls
  (`handleBallCollision`);
- pocket resolution (`checkPockets`);
- rest detection (`allBallsStopped`);
- the shot release (`mouseup`) and the spin selector (`mousemove`);
- the first-hit search of the aim guide (`drawAimbot`);
- turn hand-over (`switchPlayer`), the winner (`declareWinner`), racking (`resetBalls`),
  the restart (`restartGame`) and the frame loop (`gameLoop`).

The client's module-level mutable state is one immutable `Game` record. Every handler is a
pure function from `Game` to `Game`, or a method where the source loops.

Numbers are `real`: the browser's doubles are treated as exact rationals. `Math.sqrt`,
`Math.atan2`, `Math.cos`, `Math.sin` and `Math.PI` are fields of a `Numerics` record that
each operation takes as a parameter. Properties that need them to be exact say so with
`requires SqrtExact(m)` (the square root of a non-negative number is its non-negative root)
or `requires UnitCircle(m)` (cosine and sine of any angle lie on the unit circle). The table
size comes from the canvas and is the `Table(w, h)` parameter.

Files, one module each:

| file | module | models |
|---|---|---|
| numerics.dfy | `Numerics` | the math record and arithmetic facts |
| world.dfy | `World` | constants, balls, pockets, scores, the game state |
| motion.dfy | `Motion` | rest detection, spin coupling, friction, cushions |
| collision.dfy | `Collision` | `handleBallCollision` and the pair sweep |
| pockets.dfy | `Pockets` | `checkPockets` |
| shot.dfy | `Shot` | `mousemove` spin selection and the `mouseup` release |
| aim.dfy | `Aim` | the direction and first-hit loop of `drawAimbot` |
| turn.dfy | `Turn` | `switchPlayer`, `declareWinner`, `resetBalls`, `restartGame` |
| loop.dfy | `GameLoop` | `updateBalls` as a whole and `gameLoop` |

Behaviour worth knowing before reading the contracts:

- The turn changes hands at rest only when the client awaits the opponent's shot or holds the
  turn. Otherwise the animation just stops (`GameLoop.Settle`).
- The push-apart leaves the pair it resolves exactly `minDist + EPS` apart. Later pairs of
  the same sweep may move those balls again, so no all-pairs spacing is claimed.
- A contact does not always leave the pair separating. When the cue ball strikes with
  enough back spin, the pair keeps closing (`Collision.SeparatesUnlessBackSpin`,
  `Collision.BackSpinCanClose`).
- After a match ends no frame is scheduled again (see Findings).

## Model

| member | source | states |
|---|---|---|
| Motion.AllBallsStopped | public/script.js:103-109 | the answer is true exactly when the cue ball and every object ball are at most 0.08 on both velocity axes, and false exactly when one ball exceeds 0.08 on either axis |
| Motion.SpinCouple | public/script.js:113-126 | spin steers only a cue ball faster than 0.01 that carries spin; then both spin components are damped by 0.97; otherwise the ball is untouched; the position never changes |
| Motion.CouplingNeedsMotion | public/script.js:114-115 | with an exact square root, a steered cue ball has squared speed above 0.0001 |
| Motion.Roll | public/script.js:127-130 | a friction tick moves the ball by its velocity; each velocity component keeps its sign and shrinks strictly unless it is zero; spin is untouched |
| Motion.CoastDecay | public/script.js:129-130 | after n friction ticks a velocity component times (1 + 0.008 n) is at most its starting magnitude |
| Motion.FreeBallSettles | public/script.js:133-137 | friction alone brings any ball under the 0.08 stop threshold on both axes after finitely many ticks |
| Motion.SettlesAfter | public/script.js:133-137 | a ball whose speed sum times 1563 is below the tick count is settled after that many free ticks |
| Motion.WallRadius | public/script.js:195 | the cushion radius is 32 for the cue ball while the spin selector is shown and 13 otherwise |
| Motion.WallCollision | public/script.js:194-228 | on a table that fits the ball it ends between the cushions, and a crossing ball lands on the rail it crossed (WALL + r, or the far rail less r); a crossed axis has its velocity reflected and damped to -0.9 of itself; an untouched axis keeps position and velocity; cushions never add speed; the cue ball's spin is scaled by (-0.6, 0.95) for an x cushion, (0.95, -0.6) for a y cushion, -0.57 on both for a corner; object balls keep their spin |
| Motion.WallX | public/script.js:196-211 | the left and right cushions: the ball ends inside the rails, a ball crossing the left rail lands at WALL + r and one crossing only the right rail at w - WALL - r, a crossing reflects vx to -0.9 of itself, and a ball clear of both is unchanged |
| Motion.WallY | public/script.js:212-227 | the top and bottom cushions: the ball ends inside the rails, a ball crossing the top rail lands at WALL + r and one crossing only the bottom rail at h - WALL - r, a crossing reflects vy to -0.9 of itself, and a ball clear of both is unchanged |
| Collision.Collide | public/script.js:149-192 | no change when the centres coincide or the pair does not overlap by more than EPS; the midpoint of the pair is kept; velocities change only while the pair closes; for a non-cue first ball the velocity sum is conserved; for the cue ball the struck ball gains its side spin along the tangent and 0.6 of its vertical spin along the normal, and the cue ball keeps 0.4 of each spin component |
| Collision.Separate | public/script.js:157-163 | the push-apart keeps the midpoint and grows the separation by the overlap along the normal, touching nothing else |
| Collision.Kick | public/script.js:169-189 | the impulse is equal and opposite: the velocity sum changes only by the handed-on spin, and the relative velocity changes by twice the impulse along the normal plus that spin; the cue ball keeps 0.4 of its spin |
| Collision.PushApartSpacing | public/script.js:156-163 | with an exact square root, a resolved pair ends exactly minDist + EPS apart |
| Collision.UnitNormal | public/script.js:159 | with an exact square root, the normal of a non-concentric pair is a unit vector along the line of centres |
| Collision.ContactRebound | public/script.js:165-189 | along the old line of centres, a closing pair's closing speed after the contact is -0.96 times what it was, plus 0.6 of the cue ball's vertical spin when the cue ball strikes |
| Collision.SeparatesUnlessBackSpin | public/script.js:165-189 | a contact struck by an object ball always leaves the pair separating; one struck by the cue ball leaves it separating exactly when 0.6 of its vertical spin exceeds 0.96 of the closing speed |
| Collision.BackSpinCanClose | public/script.js:185-187 | any cue ball moving at 0.1 along the line of centres with back spin -7, hitting a ball at rest, leaves the pair closing faster than before the contact |
| Collision.KickRebound | public/script.js:169-189 | along a unit normal, an impulse of 0.98 times the closing speed reverses the closing speed to -0.96 of itself, plus the handed-on vertical spin |
| Collision.TransferAlongNormal | public/script.js:172-187 | along a unit normal, any impulse changes the closing speed by twice itself plus the spin handed on along the normal; side spin along the tangent adds nothing |
| Collision.CollideAt | public/script.js:144 | resolving pair (i, j) of the list whose front is the cue ball replaces balls i and j by the pair `Collide` resolves and changes no other ball; it keeps the list's length, the numbers, object-ball spin and the position sums, and keeps the velocity sums while the cue ball has no spin |
| Collision.SweepRow | public/script.js:143-145 | the inner loop over j keeps what a single contact keeps |
| Collision.Sweep | public/script.js:141-146 | the whole pair sweep keeps the numbers, object-ball spin and the position sums, and keeps the velocity sums while the cue ball has no spin |
| Pockets.InPocketIffCaptured | public/script.js:232 | with an exact square root, the distance test against radius 23 is the squared-distance test against 23 squared |
| Pockets.FindPocket | public/script.js:242-248 | the loop over the six pockets answers true exactly when some pocket is within reach |
| Pockets.Scratch | public/script.js:231-238 | a pocketed cue ball ends at the break spot (150, h/2) at rest and without spin; any other cue ball is unchanged |
| Pockets.RespawnIsClear | public/script.js:233-234 | on a table at least twice the break distance wide, and tall enough to leave a pocket's reach between the middle and each rail, the break spot is outside every pocket |
| Pockets.SurvivorsInOrder | public/script.js:241-250 | the balls kept are exactly those out of every pocket's reach, in their original order |
| Pockets.PocketPartition | public/script.js:240-250 | every ball is either kept or potted, never both: together they are the original balls as a multiset |
| Pockets.PocketNumbers | public/script.js:244 | the numbers kept plus the numbers potted are the numbers on the table before |
| Pockets.PottedExactly | public/script.js:242-246 | a ball is potted exactly when it was on the table and within some pocket's reach |
| Pockets.PocketObjectBalls | public/script.js:240-250 | the filter with its pocket loop keeps the survivors, removes the potted balls, credits their number sum to the current player and leaves the other player's score alone |
| Pockets.CheckPockets | public/script.js:230-252 | the points scored plus the points on the table are unchanged; only the current player scores, by exactly the potted numbers; the balls shrink to the survivors; a pocketed cue ball is respawned |
| Shot.Clamp | public/script.js:619-620 | the result lies in [-1, 1], equals the input inside that range and the nearer bound outside it |
| Shot.Hover | public/script.js:608-627 | the spin selection and the applied spin stay in the unit square; while setting spin, a pointer within 0.1 of the centre keeps the old selection, a farther one selects its offset over 25 clamped per axis, the applied spin follows the selection, and nothing else changes; otherwise only the aim end moves, to the pointer, and only while aiming |
| Shot.SelectorIsLinearInside | public/script.js:612-618 | with an exact square root, a pointer between 0.1 and 25 from the cue ball selects its offset divided by 25 |
| Shot.ShotPower | public/script.js:641 | the power is 0.22 times the drag up to 120, never above 26.4, and at least 2.2 for a firing drag |
| Shot.ShotPowerMonotone | public/script.js:641 | a longer drag never gives a weaker shot |
| Shot.Release | public/script.js:628-649 | a firing release launches the cue ball from where it stands with spin equal to the applied spin times 7, locks the cue and starts the motion; any other release leaves the cue ball and shot state alone; releasing outside the selector ends the aim; the release writes only the cue ball's velocity and spin, the aim flag, the spin-setting flag, `canShoot` and `moving`, and every other field is kept |
| Shot.ShortDragIsNoOp | public/script.js:637-640 | with an exact square root, a drag shorter than 10 never fires and leaves the cue ball and the motion flag untouched |
| Shot.LaunchSpeed | public/script.js:641-644 | with cosine and sine on the unit circle, the launch speed is exactly the shot power, so its square is at most 26.4 squared |
| Shot.ReleasedSpinBounded | public/script.js:645-646 | an applied spin in the unit square launches a spin of at most 7 on each axis |
| Aim.AimRay | public/script.js:348-366 | a direction exists only while the guide is shown and the drag is at least 8 |
| Aim.RayExists | public/script.js:348-366 | with an exact square root, the converse: whenever the guide is shown and the drag is at least 8 there is a direction to search along |
| Aim.BentIsLong | public/script.js:354-365 | with an exact square root, the spin-bent direction of a drag of at least 8 has length at least 1, since it is the unit drag direction plus a multiple of its perpendicular |
| Aim.AimRayIsUnit | public/script.js:363-366 | with an exact square root the guide's direction is a unit vector |
| Aim.Nearest | public/script.js:361-384 | no selection exactly when no contact lies ahead; otherwise the selection is the nearest contact ahead, and the first listed among equally near ones |
| Aim.EarliestUnique | public/script.js:376 | the nearest-ahead, first-listed contact is unique |
| Aim.FirstHit | public/script.js:361-384 | the loop finds no ball exactly when no contact is ahead; otherwise it finds the first hit, with the cue ball's centre at `cue + u*t` |
| Aim.AimGuide | public/script.js:347-384 | no guide direction gives no hit; otherwise the result is the first hit along the guide, and a hit implies the guide was shown |
| Aim.HitPointTouches | public/script.js:370-381 | with an exact square root and a unit direction, the contact point lies exactly 26 from the struck ball's centre |
| Aim.HalfChord | public/script.js:372-375 | a contact is the projection less a half-chord whose square, plus the squared miss distance, is 26 squared |
| Turn.SwitchPlayer | public/script.js:655-669 | the other player is at the table, may shoot and starts without applied spin; after the local player's own shot the opponent is to play; after the opponent's shot the local player is; every other field, including the spin selection, is kept |
| Turn.SwitchTwiceReturns | public/script.js:656 | two hand-overs return the table to the player who had it |
| Turn.RoundTrip | public/script.js:655-669 | the opponent's finished shot followed by the local player's returns the table with the local player waiting again |
| Turn.DeclareWinner | public/script.js:494-498 | player 1 wins exactly when ahead, player 2 exactly when ahead, a draw exactly on equal scores |
| Turn.WinnerSymmetric | public/script.js:496-498 | exchanging the scores exchanges the winner |
| Turn.WinnerLeads | public/script.js:496-497 | the declared winner has strictly more points than the other player |
| Turn.SlotStep | public/script.js:68-69 | the rack fills each row column by column, then starts the next row |
| Turn.RackFitsFourRows | public/script.js:68-70 | the eight balls fit in the first four rows |
| Turn.RackBalls | public/script.js:63-81 | the nested racking loop places ball k + 1 in the k-th slot of the triangle, for all eight balls |
| Turn.NumberSumOfCount | public/script.js:67-79 | balls numbered 1 to n carry n(n+1)/2 points |
| Turn.RackedBalls | public/script.js:67-79 | a fresh rack is eight balls numbered 1 to 8 in order, at rest and without spin, worth 36 points |
| Turn.ResetBalls | public/script.js:63-96 | the balls are racked afresh, the cue ball is at the break spot at rest, the spin selection is cleared and the selector hidden, and the motion stops; every other field is kept |
| Turn.Restart | public/script.js:501-515 | the scores are cleared, player 1 is at the table and may shoot, nothing moves, the banner is hidden, the balls are racked afresh, the spin selection is cleared and the selector hidden; the table, the aim and the turn flags are kept |
| Turn.RestartPoints | public/script.js:506-511 | a restarted match has 36 points on the table and none scored |
| GameLoop.MoveAll | public/script.js:133-139 | every object ball moves, in list order, keeping its number |
| GameLoop.UpdateBalls | public/script.js:112-147 | a tick keeps every object ball on the table in its place in the list, with its number, so the number sum is unchanged; it changes nothing but the balls |
| GameLoop.QuietTick | public/script.js:112-147 | a tick in which no two moved balls touch is exactly the moves: the cue ball as its own move leaves it and every object ball as its move leaves it, so each velocity component of a ball clear of the cushions keeps its sign and shrinks |
| Collision.QuietSweep | public/script.js:141-146 | a pair sweep over balls none of which overlap by more than EPS leaves every ball as it was |
| Collision.TwoBallSweep | public/script.js:141-146 | with only the cue ball and one object ball, the sweep is exactly their one contact as `Collide` resolves it |
| Collision.QuietRow | public/script.js:143-145 | one row of the sweep over such balls leaves every ball as it was |
| GameLoop.SweepKeepsSums | public/script.js:141-146 | while the cue ball has no spin, the collisions of one tick keep the sums of positions and velocities the moves produced |
| GameLoop.CueStaysSpinFree | public/script.js:113-131 | a cue ball without spin has none after its move |
| GameLoop.Advance | public/script.js:672-690 | a frame without motion changes nothing; a frame that pots the last ball stops and shows the winner of the final scores; the points scored plus the points on the table are unchanged; only the player at the table scores, and with positive ball numbers never loses points; a moving frame that leaves some object ball and has not come to rest is exactly the tick followed by the pocket check, and the balls keep moving |
| GameLoop.KeepsRolling | public/script.js:673-692 | a moving frame that leaves some object ball and has not come to rest runs the tick and the pocket check and keeps the animation moving |
| GameLoop.Conclude | public/script.js:676-689 | with no ball left the match ends; once everything is at rest the table is settled; otherwise nothing changes |
| GameLoop.Settle | public/script.js:681-689 | at rest the motion stops; the table goes back to the local player after the opponent's shot, to the opponent after the local player's, and stays put otherwise |
| GameLoop.PottedScoresNonNegative | public/script.js:244 | with positive ball numbers, potting never lowers the shooter's score |
| GameLoop.FrameAsWritten | public/script.js:672-693 | a frame on a still table changes nothing and requests the next one; the animation stops exactly on the frame that ends the match, which leaves no object ball, stops the motion and shows a winner; the points scored plus the points on the table are unchanged |
| GameLoop.MatchEndFreezesAsWritten | public/script.js:676-680 | after the match-ending frame and the restart timer, no further frame ever runs |
| GameLoop.Frame | public/script.js:672-692 | the corrected frame always requests the next one, leaves a still table alone, keeps the points scored plus the points on the table, and on the match-ending frame leaves no object ball and shows a winner |
| GameLoop.KeepsRunning | public/script.js:692 | a step that always requests the next frame keeps the animation going for any number of frames |
| GameLoop.FixedKeepsRunning | public/script.js:692 | with the corrected frame the animation keeps going across a match end and its restart |
| GameLoop.FixedResumesAfterMatch | public/script.js:501-515 | with the corrected frame, the frame after the restart is a frame of the new match |
| GameLoop.WorthKept | public/script.js:672-693 | a step that keeps the points scored plus the points on the table keeps them through any number of frames |
| GameLoop.FrameKeepsWorth | public/script.js:672-690 | neither frame changes the points scored plus the points on the table |
| GameLoop.RestartedMatchWorth36 | public/script.js:506-515 | a match started by the restart timer is worth 36 points, scored or on the table, for as long as it runs |
| GameLoop.OwnShotHandsOver | public/script.js:686-687 | when the local player's shot comes to rest with balls left, the opponent is at the table and the local player waits |
| GameLoop.OpponentShotHandsBack | public/script.js:684-685 | when the opponent's shot comes to rest with balls left, the local player is at the table |

## Left out

- The canvas drawing: `drawTable`, `drawBalls`, `drawCue`, `draw`, and the render half of
  `drawAimbot` (lines 386-453), including the post-hit preview. These have no state effect.
- The socket traffic: `sendShotToOpponent` is modelled only for its `myTurn = false`. The
  socket handlers (including `opponentShot`) and `serializeGameState`/`deserializeGameState`
  are out of the model, because they are I/O and calls into libraries not shown.
- DOM and event plumbing: `updateScores`, `updateTurn`, the status and winner texts, the
  `mousedown`, `keydown`, `keyup` and `mouseleave` handlers, and `init`. They only write to
  the page or open the states the modelled handlers read.
- Timing: the 3-second `setTimeout` is an immediate `GameLoop.Timeout` step. The only part
  of `requestAnimationFrame` kept is whether the next frame is requested.
- `server.js` is not part of this model. It is a socket relay whose behaviour lives in a
  library.
- IEEE-754 rounding: all arithmetic is exact over `real`.
- `Math.hypot` is the square root of the sum of squares.
- A zero-length guide direction is modelled as "no hit". The browser divides by zero there
  and every comparison with NaN fails, so it too finds no ball.
- Colours of the balls are not modelled.
- The rack positions go through the uninterpreted cosine, so no geometric claim is made
  about them.
- The velocity part of the spin coupling is modelled with the uninterpreted trigonometric
  functions. No curvature claim is made.
- Motion.WallCollision: the reflection, the spin scaling and the bounds are stated only for a
  table wide and tall enough to fit the ball between opposite cushions. On a smaller table
  both cushions of an axis can fire in one call, as in the source, and only "no speed
  added" and the untouched-axis facts are stated.
- Collision.Sweep: velocity sums are stated only while the cue ball has no spin, because the
  handed-on spin adds velocity by design.
- Motion.SpinCouple: states the damping and the guard, but not the steered velocity, which
  depends on the uninterpreted trigonometric functions.

## Findings

| source | as written | input that shows it | evidently intended | confidence | as-written member | corrected member |
|---|---|---|---|---|---|---|
| public/script.js:676-680 | the frame that pots the last object ball returns before `requestAnimationFrame`, and `restartGame` (lines 506-515) never asks for a frame again, so the new match can never animate | any frame in which the last object ball drops | request the next frame on every path so that the restarted match plays on | not executed | GameLoop.MatchEndFreezesAsWritten | GameLoop.FixedKeepsRunning |

=== FILE: aim.dfy ===
/** The aim guide's first-hit search (`drawAimbot`, up to the drawing): along the aimed
    direction, bent by the applied side spin, find the object ball the cue ball would touch
    first and the point where it would touch it. */
module Aim {
  import opened Numerics
  import opened World

  /** Distance between the centres of two touching balls: cue-ball radius plus ball radius. */
  const CONTACT: real := CUE_BALL_RADIUS + BALL_RADIUS

  /** The guide is drawn only while aiming a shot that can be taken, outside the spin selector. */
  predicate GuideShown(g: Game) {
    g.isAiming && !g.moving && g.canShoot && !g.showSpinUI
  }

  /** The direction the guide follows: the drag direction pushed sideways by a quarter of the
      swerve that the applied side spin gives at this drag length, normalised. None when the
      guide is not drawn, the drag is shorter than 8, or the direction has no length (where the
      browser computes NaN and finds no ball). */
  function AimRay(m: Numerics, g: Game): (u: Option<Vec>)
    ensures u.Some? ==> GuideShown(g) && DragLength(m, g) >= 8.0
  {
    if !GuideShown(g) || DragLength(m, g) < 8.0 then None
    else
      var f := Bent(m, g);
      var norm := m.sqrt(Norm2(f.x, f.y));
      if norm == 0.0 then None else Some(Vec(f.x / norm, f.y / norm))
  }

  /** The drag direction with a quarter of the swerve added across it, before normalising. */
  function Bent(m: Numerics, g: Game): Vec
    requires DragLength(m, g) >= 8.0
  {
    var mag := DragLength(m, g);
    var ux, uy := (g.aimEnd.x - g.cue.x) / mag, (g.aimEnd.y - g.cue.y) / mag;
    var swerve := g.spinApplied.x * SPIN_EFFECT_SIDE * 5.2 * Min(mag, 120.0) / 120.0;
    Vec(ux + -uy * swerve * 0.25, uy + ux * swerve * 0.25)
  }

  /** With an exact square root the converse holds: whenever the guide is shown and the drag is
      at least 8, there is a direction to search along, because the bent direction is the unit
      drag direction plus a multiple of its perpendicular and so never has zero length. */
  lemma RayExists(m: Numerics, g: Game)
    requires SqrtExact(m)
    requires GuideShown(g) && DragLength(m, g) >= 8.0
    ensures AimRay(m, g).Some?
  {
    var f := Bent(m, g);
    BentIsLong(m, g);
    SqrtZero(m, Norm2(f.x, f.y));
  }

  /** With an exact square root, the bent direction of a drag of at least 8 has length at
      least 1. */
  lemma BentIsLong(m: Numerics, g: Game)
    requires SqrtExact(m) && DragLength(m, g) >= 8.0
    ensures Norm2(Bent(m, g).x, Bent(m, g).y) >= 1.0
  {
    var mag := DragLength(m, g);
    var dx, dy := g.aimEnd.x - g.cue.x, g.aimEnd.y - g.cue.y;
    DragIsUnit(m, g);
    BentLength(dx / mag, dy / mag, g.spinApplied.x * SPIN_EFFECT_SIDE * 5.2 * Min(mag, 120.0) / 120.0);
  }

  /** With an exact square root, a drag of at least 8 divided by its length is a unit vector. */
  lemma DragIsUnit(m: Numerics, g: Game)
    requires SqrtExact(m) && DragLength(m, g) >= 8.0
    ensures var mag, dx, dy := DragLength(m, g), g.aimEnd.x - g.cue.x, g.aimEnd.y - g.cue.y;
      Norm2(dx / mag, dy / mag) == 1.0
  {
    var dx, dy := g.aimEnd.x - g.cue.x, g.aimEnd.y - g.cue.y;
    Norm2NonNegative(dx, dy);
    var mag := Root(m, Norm2(dx, dy));
    SquareMonotone(8.0, mag);
    UnitDirection(dx, dy, mag);
  }

  /** Adding a quarter of the swerve `w` times the perpendicular to a unit vector gives length
      squared 1 + (w / 4)², so never less than 1. */
  lemma BentLength(ux: real, uy: real, w: real)
    requires Norm2(ux, uy) == 1.0
    ensures Norm2(ux + -uy * w * 0.25, uy + ux * w * 0.25) >= 1.0
  {
    var k := w * 0.25;
    assert ux + -uy * w * 0.25 == ux - uy * k && uy + ux * w * 0.25 == uy + ux * k;
    calc {
      Norm2(ux - uy * k, uy + ux * k);
      (ux - uy * k) * (ux - uy * k) + (uy + ux * k) * (uy + ux * k);
      (ux * ux + uy * uy) * (1.0 + k * k);
    }
    assert k * k >= 0.0;
  }

  /** With an exact square root the guide's direction is a unit vector. */
  lemma AimRayIsUnit(m: Numerics, g: Game)
    requires SqrtExact(m)
    requires AimRay(m, g).Some?
    ensures Norm2(AimRay(m, g).value.x, AimRay(m, g).value.y) == 1.0
  {
    var f := Bent(m, g);
    Norm2NonNegative(f.x, f.y);
    var norm := Root(m, Norm2(f.x, f.y));
    SqrtZero(m, Norm2(f.x, f.y));
    UnitDirection(f.x, f.y, norm);
  }

  /** The contact distance along `u` for one ball: the projection of the ball's centre on the
      ray, less the half-chord at the ray's distance from the centre. None when the ball is
      behind the cue ball or the ray passes more than CONTACT from its centre. */
  function Contact(m: Numerics, cue: Ball, u: Vec, b: Ball): Option<real> {
    var proj := Projection(cue, u, b);
    if proj <= 0.0 then None
    else
      var distToBall := Clearance(m, cue, u, b);
      if distToBall > CONTACT then None
      else Some(proj - m.sqrt(Sq(CONTACT) - Sq(distToBall)))
  }

  /** The ball's centre seen from the cue ball's. */
  function Rel(cue: Ball, b: Ball): Vec {
    Vec(b.x - cue.x, b.y - cue.y)
  }

  /** How far along `u` the ball's centre lies from the cue ball's. */
  function Projection(cue: Ball, u: Vec, b: Ball): real {
    var rel := Rel(cue, b);
    rel.x * u.x + rel.y * u.y
  }

  /** How far the ball's centre lies from the ray: its distance from its projection. */
  function Clearance(m: Numerics, cue: Ball, u: Vec, b: Ball): real {
    m.sqrt(Norm2(Miss(cue, u, b).x, Miss(cue, u, b).y))
  }

  /** From the point of the ray nearest the ball to the ball's centre. */
  function Miss(cue: Ball, u: Vec, b: Ball): Vec {
    var proj := Projection(cue, u, b);
    Vec(b.x - (cue.x + u.x * proj), b.y - (cue.y + u.y * proj))
  }

  /** A contact the search can select: one ahead of the cue ball. */
  predicate Ahead(c: Option<real>) {
    c.Some? && c.value > 0.0
  }

  /** The contact distance for every ball, in table order. */
  function Contacts(m: Numerics, cue: Ball, u: Vec, balls: seq<Ball>): (cs: seq<Option<real>>)
    ensures |cs| == |balls|
    ensures forall i :: 0 <= i < |balls| ==> cs[i] == Contact(m, cue, u, balls[i])
  {
    seq(|balls|, i requires 0 <= i < |balls| => Contact(m, cue, u, balls[i]))
  }

  /** Among the first `n` contacts, the one at `i` with distance `t` is ahead, no farther than
      any other ahead contact, and strictly nearer than every ahead contact listed before it. */
  predicate Earliest(cs: seq<Option<real>>, n: nat, i: nat, t: real)
    requires n <= |cs|
  {
    && i < n && cs[i] == Some(t) && t > 0.0
    && (forall j :: 0 <= j < n && Ahead(cs[j]) ==> t <= cs[j].value)
    && (forall j :: 0 <= j < i && Ahead(cs[j]) ==> t < cs[j].value)
  }

  /** The result of the search: the ball hit (by position), the distance travelled and the
      cue ball's centre at contact. */
  datatype Hit = Hit(index: nat, t: real, point: Vec)

  /** `h` is the first hit among `balls` along `u`, with its contact point `t` along the ray. */
  predicate IsFirstHit(m: Numerics, cue: Ball, u: Vec, balls: seq<Ball>, h: Hit) {
    && Earliest(Contacts(m, cue, u, balls), |balls|, h.index, h.t)
    && h.point == PointAt(cue, u, h.t)
  }

  /** The cue ball's centre after travelling `t` along `u`. */
  function PointAt(cue: Ball, u: Vec, t: real): Vec {
    Vec(cue.x + u.x * t, cue.y + u.y * t)
  }

  /** The selection in the search loop: a contact replaces the best so far only when strictly
      nearer, so among equally near balls the first listed wins. */
  method Nearest(cs: seq<Option<real>>) returns (best: Option<(nat, real)>)
    ensures best.None? <==> forall j :: 0 <= j < |cs| ==> !Ahead(cs[j])
    ensures best.Some? ==> Earliest(cs, |cs|, best.value.0, best.value.1)
  {
    best := None;
    var i := 0;
    while i < |cs|
      invariant 0 <= i <= |cs|
      invariant best.None? <==> forall j :: 0 <= j < i ==> !Ahead(cs[j])
      invariant best.Some? ==> Earliest(cs, i, best.value.0, best.value.1)
    {
      var c := cs[i];
      if c.Some? && c.value > 0.0 && (best.None? || c.value < best.value.1) {
        best := Some((i, c.value));
      }
      i := i + 1;
    }
  }

  /** The earliest contact is determined by the contacts: two answers meeting its description
      agree. */
  lemma EarliestUnique(cs: seq<Option<real>>, i1: nat, t1: real, i2: nat, t2: real)
    requires Earliest(cs, |cs|, i1, t1) && Earliest(cs, |cs|, i2, t2)
    ensures i1 == i2 && t1 == t2
  {
    assert Ahead(cs[i1]) && Ahead(cs[i2]);
    assert t1 == t2;
  }

  /** The search loop of the aim guide: the contact for every ball, the nearest ahead, and the
      cue ball's centre at that contact. */
  method FirstHit(m: Numerics, cue: Ball, u: Vec, balls: seq<Ball>) returns (hit: Option<Hit>)
    ensures hit.None? <==> forall j :: 0 <= j < |balls| ==> !Ahead(Contacts(m, cue, u, balls)[j])
    ensures hit.Some? ==> IsFirstHit(m, cue, u, balls, hit.value)
  {
    var cs := Contacts(m, cue, u, balls);
    var best := Nearest(cs);
    if best.None? {
      return None;
    }
    hit := Some(Hit(best.value.0, best.value.1, PointAt(cue, u, best.value.1)));
  }

  /** The guide as drawn: no ray, no hit; otherwise the first hit along the ray. */
  method AimGuide(m: Numerics, g: Game) returns (hit: Option<Hit>)
    ensures AimRay(m, g).None? ==> hit.None?
    ensures AimRay(m, g).Some? ==>
      (hit.None? <==> forall j :: 0 <= j < |g.balls| ==> !Ahead(Contacts(m, g.cue, AimRay(m, g).value, g.balls)[j]))
    ensures AimRay(m, g).Some? && hit.Some? ==> IsFirstHit(m, g.cue, AimRay(m, g).value, g.balls, hit.value)
    ensures hit.Some? ==> GuideShown(g)
  {
    var ray := AimRay(m, g);
    if ray.None? {
      return None;
    }
    hit := FirstHit(m, g.cue, ray.value, g.balls);
  }

  // ----- The contact point -----

  /** With an exact square root and a unit direction, the contact point found for a ball is
      exactly CONTACT from that ball's centre: the guide stops where the balls touch. */
  lemma HitPointTouches(m: Numerics, cue: Ball, u: Vec, b: Ball)
    requires SqrtExact(m) && Norm2(u.x, u.y) == 1.0
    requires Contact(m, cue, u, b).Some?
    ensures var t := Contact(m, cue, u, b).value;
      Dist2(PointAt(cue, u, t), Pos(b)) == Sq(CONTACT)
  {
    var off := HalfChord(m, cue, u, b);
    ShortOfProjection(cue, u, b, off);
  }

  /** Stopping `off` short of the projection along a unit vector leaves the ball's centre the
      miss plus `off` along the ray away: the squared distances add. */
  lemma ShortOfProjection(cue: Ball, u: Vec, b: Ball, off: real)
    requires Norm2(u.x, u.y) == 1.0
    ensures Dist2(PointAt(cue, u, Projection(cue, u, b) - off), Pos(b))
      == Norm2(Miss(cue, u, b).x, Miss(cue, u, b).y) + Sq(off)
  {
    var proj, w := Projection(cue, u, b), Miss(cue, u, b);
    var t := proj - off;
    var rx, ry := Rel(cue, b).x, Rel(cue, b).y;
    var ex, ey := rx - u.x * t, ry - u.y * t;
    assert Norm2(ex, ey) == Norm2(w.x, w.y) + Sq(off) by {
      Touch(rx, ry, u.x, u.y, proj, off, t, w.x, w.y, ex, ey);
    }
    assert Dist2(PointAt(cue, u, t), Pos(b)) == Norm2(ex, ey) by {
      assert PointAt(cue, u, t) == Vec(b.x - ex, b.y - ey);
      NegatedNorm(ex, ey);
    }
  }

  /** With an exact square root, a contact is the projection less a half-chord `off` that
      completes the miss to CONTACT: the miss and `off` are the legs of a right triangle whose
      hypotenuse is the distance between touching centres. */
  lemma HalfChord(m: Numerics, cue: Ball, u: Vec, b: Ball) returns (off: real)
    requires SqrtExact(m)
    requires Contact(m, cue, u, b).Some?
    ensures Contact(m, cue, u, b).value == Projection(cue, u, b) - off
    ensures Norm2(Miss(cue, u, b).x, Miss(cue, u, b).y) + Sq(off) == Sq(CONTACT)
  {
    var w := Miss(cue, u, b);
    Norm2NonNegative(w.x, w.y);
    var d := Clearance(m, cue, u, b);
    assert d == Root(m, Norm2(w.x, w.y));
    assert 0.0 <= d && Sq(d) == Norm2(w.x, w.y);
    assert d <= CONTACT;
    SquareMonotone(CONTACT, d);
    off := Root(m, Sq(CONTACT) - Sq(d));
    assert Sq(off) == Sq(CONTACT) - Sq(d);
  }

  /** Travelling the projection less `off` along a unit vector leaves the ball's centre the
      miss vector plus `off` along the ray away, so its squared distance is the miss's plus
      `off`'s. */
  lemma Touch(rx: real, ry: real, ux: real, uy: real, p: real, off: real, t: real,
              wx: real, wy: real, ex: real, ey: real)
    requires Norm2(ux, uy) == 1.0 && p == rx * ux + ry * uy && t == p - off
    requires wx == rx - ux * p && wy == ry - uy * p
    requires ex == rx - ux * t && ey == ry - uy * t
    ensures Norm2(ex, ey) == Norm2(wx, wy) + Sq(off)
  {
    Perpendicular(rx, ry, ux, uy, p, wx, wy);
    Along(rx, ux, p, off, wx, ex);
    Along(ry, uy, p, off, wy, ey);
    Pythagoras(wx, wy, ux, uy, off, ex, ey);
  }

  /** Removing from `rel` its projection on a unit vector leaves a vector perpendicular to it. */
  lemma Perpendicular(rx: real, ry: real, ux: real, uy: real, p: real, wx: real, wy: real)
    requires Norm2(ux, uy) == 1.0 && p == rx * ux + ry * uy
    requires wx == rx - ux * p && wy == ry - uy * p
    ensures wx * ux + wy * uy == 0.0
  {
    assert wx * ux == rx * ux - Sq(ux) * p;
    assert wy * uy == ry * uy - Sq(uy) * p;
    assert Sq(ux) * p + Sq(uy) * p == p;
  }

  /** The offset from the contact point to the centre, on one axis. */
  lemma Along(r: real, u: real, p: real, off: real, w: real, e: real)
    requires w == r - u * p && e == r - u * (p - off)
    ensures e == w + u * off
  {
  }

  /** Adding a multiple of a unit vector to a perpendicular vector adds the squares. */
  lemma Pythagoras(wx: real, wy: real, ux: real, uy: real, o: real, ex: real, ey: real)
    requires Norm2(ux, uy) == 1.0 && wx * ux + wy * uy == 0.0
    requires ex == wx + ux * o && ey == wy + uy * o
    ensures Norm2(ex, ey) == Norm2(wx, wy) + Sq(o)
  {
    SquareOfSum(wx, ux * o);
    SquareOfSum(wy, uy * o);
    ScaledSquare(ux, o, ux * o);
    ScaledSquare(uy, o, uy * o);
    assert wx * (ux * o) + wy * (uy * o) == (wx * ux + wy * uy) * o;
    assert Sq(ux) * Sq(o) + Sq(uy) * Sq(o) == Sq(o);
  }

  lemma SquareOfSum(a: real, b: real)
    ensures Sq(a + b) == Sq(a) + 2.0 * (a * b) + Sq(b)
  {
  }

  /** The squared distance does not depend on the direction it is measured in. */
  lemma NegatedNorm(x: real, y: real)
    ensures Norm2(-x, -y) == Norm2(x, y)
  {
  }
}

=== FILE: collision.dfy ===
/** Ball-to-ball contact: the positional correction, the impulse along the line of centres and
    the cue ball's spin transfer for one pair, and the sweep over every pair of one tick. */
module Collision {
  import opened Numerics
  import opened World

  /** The two balls of a pair after their contact is resolved. */
  datatype Pair = Pair(a: Ball, b: Ball)

  /** Contact radius: the cue ball's own radius for the cue ball, else the object-ball radius. */
  function Radius(isCue: bool): (r: real)
    ensures r == 13.0
  {
    if isCue then CUE_BALL_RADIUS else BALL_RADIUS
  }

  /** Distance between the centres, through the browser's square root. */
  function Dist(m: Numerics, a: Ball, b: Ball): real {
    m.sqrt(Norm2(b.x - a.x, b.y - a.y))
  }

  /** The pair overlaps by more than EPS and is not concentric: the only case that acts. */
  predicate Touching(m: Numerics, a: Ball, b: Ball, aIsCue: bool, bIsCue: bool) {
    Dist(m, a, b) != 0.0 && Dist(m, a, b) < Radius(aIsCue) + Radius(bIsCue) - EPS
  }

  /** Unit vector from `a` toward `b` (when the square root is exact). */
  function Normal(m: Numerics, a: Ball, b: Ball): Vec
    requires Dist(m, a, b) != 0.0
  {
    Vec((b.x - a.x) / Dist(m, a, b), (b.y - a.y) / Dist(m, a, b))
  }

  /** Relative velocity of `b` with respect to `a` along the direction `n`; negative while the
      balls close on each other. */
  function ClosingSpeed(a: Ball, b: Ball, n: Vec): real {
    var rv := RelVel(a, b);
    rv.x * n.x + rv.y * n.y
  }

  /** Velocity of `b` relative to `a`. */
  function RelVel(a: Ball, b: Ball): Vec {
    Vec(b.vx - a.vx, b.vy - a.vy)
  }

  /** The pair overlaps and is closing: the case in which velocities change. */
  predicate Approaching(m: Numerics, a: Ball, b: Ball, aIsCue: bool, bIsCue: bool) {
    Touching(m, a, b, aIsCue, bIsCue) && ClosingSpeed(a, b, Normal(m, a, b)) < 0.0
  }

  /** How far a touching pair is pushed apart: its overlap plus EPS. */
  function Overlap(m: Numerics, a: Ball, b: Ball, aIsCue: bool, bIsCue: bool): real {
    Radius(aIsCue) + Radius(bIsCue) - Dist(m, a, b) + EPS
  }

  /** The positional correction: `a` moves back and `b` forward along `n`, each by half of
      `overlap`. */
  function Separate(a: Ball, b: Ball, n: Vec, overlap: real): (r: Pair)
    ensures r.a.x + r.b.x == a.x + b.x && r.a.y + r.b.y == a.y + b.y
    ensures r.b.x - r.a.x == (b.x - a.x) + n.x * overlap && r.b.y - r.a.y == (b.y - a.y) + n.y * overlap
    ensures r.a.vx == a.vx && r.a.vy == a.vy && r.b.vx == b.vx && r.b.vy == b.vy
    ensures r.a.spinX == a.spinX && r.a.spinY == a.spinY && r.b.spinX == b.spinX && r.b.spinY == b.spinY
    ensures r.a.number == a.number && r.b.number == b.number
  {
    Pair(a.(x := a.x - n.x * overlap / 2.0, y := a.y - n.y * overlap / 2.0),
         b.(x := b.x + n.x * overlap / 2.0, y := b.y + n.y * overlap / 2.0))
  }

  /** The velocity exchange: an equal and opposite `impulse` along `n`, then, when `a` is the
      cue ball, its side spin handed to `b` along the tangent and 0.6 of its vertical spin along
      `n`, the cue ball keeping 0.4 of each spin component. */
  function Kick(a: Ball, b: Ball, n: Vec, impulse: real, aIsCue: bool): (r: Pair)
    ensures var side := if aIsCue then a.spinX else 0.0;
      var top := if aIsCue then a.spinY * 0.6 else 0.0;
      && r.a.vx + r.b.vx == a.vx + b.vx - n.y * side + n.x * top
      && r.a.vy + r.b.vy == a.vy + b.vy + n.x * side + n.y * top
      && RelVel(r.a, r.b).x == RelVel(a, b).x + 2.0 * impulse * n.x + -n.y * side + n.x * top
      && RelVel(r.a, r.b).y == RelVel(a, b).y + 2.0 * impulse * n.y + n.x * side + n.y * top
    ensures aIsCue ==> r.a.spinX == 0.4 * a.spinX && r.a.spinY == 0.4 * a.spinY
    ensures !aIsCue ==> r.a.spinX == a.spinX && r.a.spinY == a.spinY
    ensures r.a.x == a.x && r.a.y == a.y && r.b.x == b.x && r.b.y == b.y
    ensures r.b.spinX == b.spinX && r.b.spinY == b.spinY
    ensures r.a.number == a.number && r.b.number == b.number
  {
    if aIsCue then Transfer(a, b, n, impulse, a.spinX, a.spinY * 0.6, 0.4)
    else Transfer(a, b, n, impulse, 0.0, 0.0, 1.0)
  }

  /** The velocity exchange with the handed-on spin given: `side` along the tangent and `top`
      along `n`; `a` keeps the fraction `keep` of its spin. */
  function Transfer(a: Ball, b: Ball, n: Vec, impulse: real, side: real, top: real, keep: real): (r: Pair)
    ensures RelVel(r.a, r.b).x == RelVel(a, b).x + 2.0 * impulse * n.x + -n.y * side + n.x * top
    ensures RelVel(r.a, r.b).y == RelVel(a, b).y + 2.0 * impulse * n.y + n.x * side + n.y * top
  {
    Pair(a.(vx := a.vx - impulse * n.x, vy := a.vy - impulse * n.y,
            spinX := a.spinX * keep, spinY := a.spinY * keep),
         b.(vx := b.vx + impulse * n.x + -n.y * side + n.x * top,
            vy := b.vy + impulse * n.y + n.x * side + n.y * top))
  }

  /** `handleBallCollision(a, b)`: an overlapping pair is pushed apart symmetrically to EPS
      beyond contact and, if it is closing, given an impulse of 0.98 times the closing speed. */
  function Collide(m: Numerics, a: Ball, b: Ball, aIsCue: bool, bIsCue: bool): (r: Pair)
    // concentric or separated pairs are left alone
    ensures !Touching(m, a, b, aIsCue, bIsCue) ==> r == Pair(a, b)
    // the push-apart moves both centres by opposite amounts: the midpoint stays put
    ensures r.a.x + r.b.x == a.x + b.x && r.a.y + r.b.y == a.y + b.y
    // velocities and spins change only for an overlapping pair that is closing
    ensures !Approaching(m, a, b, aIsCue, bIsCue) ==>
      && r.a.vx == a.vx && r.a.vy == a.vy && r.b.vx == b.vx && r.b.vy == b.vy
      && r.a.spinX == a.spinX && r.a.spinY == a.spinY
    // equal and opposite impulse: the total velocity is kept unless the cue ball hands on spin
    ensures !aIsCue ==> r.a.vx + r.b.vx == a.vx + b.vx && r.a.vy + r.b.vy == a.vy + b.vy
    // what the cue ball hands on is exactly its side spin along the tangent and 0.6 of its
    // vertical spin along the normal, and it keeps 0.4 of each spin component
    ensures aIsCue && Approaching(m, a, b, aIsCue, bIsCue) ==>
      var n := Normal(m, a, b);
      && r.a.vx + r.b.vx == a.vx + b.vx - n.y * a.spinX + n.x * (a.spinY * 0.6)
      && r.a.vy + r.b.vy == a.vy + b.vy + n.x * a.spinX + n.y * (a.spinY * 0.6)
      && r.a.spinX == 0.4 * a.spinX && r.a.spinY == 0.4 * a.spinY
    // the struck ball keeps its spin, and nobody changes number
    ensures r.b.spinX == b.spinX && r.b.spinY == b.spinY
    ensures r.a.number == a.number && r.b.number == b.number
  {
    // the client returns early for concentric balls and acts only on an overlap beyond EPS
    if Touching(m, a, b, aIsCue, bIsCue) then Act(m, a, b, aIsCue, bIsCue) else Pair(a, b)
  }

  /** A touching pair's contact: `Resolve` along the line of centres by the overlap. */
  function Act(m: Numerics, a: Ball, b: Ball, aIsCue: bool, bIsCue: bool): (r: Pair)
    requires Touching(m, a, b, aIsCue, bIsCue)
    ensures r.a.x + r.b.x == a.x + b.x && r.a.y + r.b.y == a.y + b.y
    ensures !Approaching(m, a, b, aIsCue, bIsCue) ==>
      && r.a.vx == a.vx && r.a.vy == a.vy && r.b.vx == b.vx && r.b.vy == b.vy
      && r.a.spinX == a.spinX && r.a.spinY == a.spinY
    ensures !aIsCue ==> r.a.vx + r.b.vx == a.vx + b.vx && r.a.vy + r.b.vy == a.vy + b.vy
    ensures aIsCue && Approaching(m, a, b, aIsCue, bIsCue) ==>
      var n := Normal(m, a, b);
      && r.a.vx + r.b.vx == a.vx + b.vx - n.y * a.spinX + n.x * (a.spinY * 0.6)
      && r.a.vy + r.b.vy == a.vy + b.vy + n.x * a.spinX + n.y * (a.spinY * 0.6)
      && r.a.spinX == 0.4 * a.spinX && r.a.spinY == 0.4 * a.spinY
    ensures r.b.spinX == b.spinX && r.b.spinY == b.spinY
    ensures r.a.number == a.number && r.b.number == b.number
  {
    Resolve(a, b, Normal(m, a, b), Overlap(m, a, b, aIsCue, bIsCue), aIsCue)
  }

  /** An acting contact along `n`: the push-apart by `overlap`, then, if the pair was closing,
      an impulse of 0.98 times the closing speed. */
  function Resolve(a: Ball, b: Ball, n: Vec, overlap: real, aIsCue: bool): (r: Pair)
    ensures r.a.x + r.b.x == a.x + b.x && r.a.y + r.b.y == a.y + b.y
    ensures ClosingSpeed(a, b, n) >= 0.0 ==>
      && r.a.vx == a.vx && r.a.vy == a.vy && r.b.vx == b.vx && r.b.vy == b.vy
      && r.a.spinX == a.spinX && r.a.spinY == a.spinY
    ensures !aIsCue ==> r.a.vx + r.b.vx == a.vx + b.vx && r.a.vy + r.b.vy == a.vy + b.vy
    ensures aIsCue && ClosingSpeed(a, b, n) < 0.0 ==>
      && r.a.vx + r.b.vx == a.vx + b.vx - n.y * a.spinX + n.x * (a.spinY * 0.6)
      && r.a.vy + r.b.vy == a.vy + b.vy + n.x * a.spinX + n.y * (a.spinY * 0.6)
      && r.a.spinX == 0.4 * a.spinX && r.a.spinY == 0.4 * a.spinY
    ensures r.b.spinX == b.spinX && r.b.spinY == b.spinY
    ensures r.a.number == a.number && r.b.number == b.number
  {
    var p := Separate(a, b, n, overlap);
    var vrel := ClosingSpeed(a, b, n);
    if vrel < 0.0 then Kick(p.a, p.b, n, -0.98 * vrel, aIsCue) else p
  }

  // ----- Geometry of one contact, under an exact square root -----

  /** The two stages of an acting contact, as used by the lemmas below. */
  lemma CollideStages(m: Numerics, a: Ball, b: Ball, aIsCue: bool, bIsCue: bool)
    requires Touching(m, a, b, aIsCue, bIsCue)
    ensures var n := Normal(m, a, b);
      var p := Separate(a, b, n, Overlap(m, a, b, aIsCue, bIsCue));
      Collide(m, a, b, aIsCue, bIsCue)
        == if ClosingSpeed(a, b, n) < 0.0 then Kick(p.a, p.b, n, -0.98 * ClosingSpeed(a, b, n), aIsCue) else p
  {
  }

  /** Moving two points apart along their unit separation `n` by `k - s`, where `s` is their
      distance, leaves them `k` apart. */
  lemma Stretch(dx: real, dy: real, s: real, nx: real, ny: real, ov: real, k: real, ex: real, ey: real)
    requires Norm2(nx, ny) == 1.0 && nx * s == dx && ny * s == dy
    requires ov == k - s && ex == dx + nx * ov && ey == dy + ny * ov
    ensures Norm2(ex, ey) == Sq(k)
  {
    assert ex == nx * k && ey == ny * k;
    ScaledSquare(nx, k, ex);
    ScaledSquare(ny, k, ey);
    Weighted(Sq(nx), Sq(ny), Sq(k));
  }

  lemma Weighted(p: real, q: real, w: real)
    requires p + q == 1.0
    ensures p * w + q * w == w
  {
  }

  /** After the push-apart the centres are exactly minDist + EPS apart. */
  lemma PushApartSpacing(m: Numerics, a: Ball, b: Ball, aIsCue: bool, bIsCue: bool)
    requires SqrtExact(m)
    requires Touching(m, a, b, aIsCue, bIsCue)
    ensures var r := Collide(m, a, b, aIsCue, bIsCue);
      Norm2(r.b.x - r.a.x, r.b.y - r.a.y) == Sq(Radius(aIsCue) + Radius(bIsCue) + EPS)
  {
    CollideStages(m, a, b, aIsCue, bIsCue);
    var r := Collide(m, a, b, aIsCue, bIsCue);
    var n := UnitNormal(m, a, b);
    var overlap := Overlap(m, a, b, aIsCue, bIsCue);
    var p := Separate(a, b, n, overlap);
    assert r.b.x - r.a.x == p.b.x - p.a.x && r.b.y - r.a.y == p.b.y - p.a.y;
    var k := Radius(aIsCue) + Radius(bIsCue) + EPS;
    Stretch(b.x - a.x, b.y - a.y, Dist(m, a, b), n.x, n.y, overlap, k, r.b.x - r.a.x, r.b.y - r.a.y);
  }

  /** With an exact square root, the normal of a non-concentric pair is a unit vector. */
  lemma UnitNormal(m: Numerics, a: Ball, b: Ball) returns (n: Vec)
    requires SqrtExact(m) && Dist(m, a, b) != 0.0
    ensures n == Normal(m, a, b)
    ensures Norm2(n.x, n.y) == 1.0
    ensures n.x * Dist(m, a, b) == b.x - a.x && n.y * Dist(m, a, b) == b.y - a.y
  {
    var dx, dy := b.x - a.x, b.y - a.y;
    Norm2NonNegative(dx, dy);
    var s := Root(m, Norm2(dx, dy));
    assert Sq(s) == Norm2(dx, dy);
    SqrtZero(m, Norm2(dx, dy));
    UnitDirection(dx, dy, s);
    n := Normal(m, a, b);
  }

  /** Along a unit `n`, the velocity exchange changes the closing speed by twice the impulse
      plus the vertical spin handed on; the side spin lies along the tangent and adds nothing. */
  lemma AlongNormal(dvx: real, dvy: real, nx: real, ny: real, side: real, top: real,
                    imp: real, ex: real, ey: real)
    requires Norm2(nx, ny) == 1.0
    requires ex == dvx + 2.0 * imp * nx + -ny * side + nx * top
    requires ey == dvy + 2.0 * imp * ny + nx * side + ny * top
    ensures ex * nx + ey * ny == dvx * nx + dvy * ny + 2.0 * imp + top
  {
    var c := 2.0 * imp + top;
    var q := nx * ny;
    Spread(ex, dvx, c, side, nx, -ny, -q);
    Spread(ey, dvy, c, side, ny, nx, q);
    Weighted(Sq(nx), Sq(ny), c);
  }

  /** One component of the rebound, multiplied out along its own axis. */
  lemma Spread(e: real, d: real, c: real, s: real, n: real, o: real, q: real)
    requires e == d + c * n + o * s && q == o * n
    ensures e * n == d * n + c * Sq(n) + s * q
  {
  }

  /** The rebound of a closing pair: along the old line of centres, the closing speed becomes
      -0.96 of what it was, plus 0.6 of the cue ball's vertical spin when the cue ball strikes. */
  lemma ContactRebound(m: Numerics, a: Ball, b: Ball, aIsCue: bool, bIsCue: bool)
    requires SqrtExact(m)
    requires Approaching(m, a, b, aIsCue, bIsCue)
    ensures var n := Normal(m, a, b);
      var r := Collide(m, a, b, aIsCue, bIsCue);
      ClosingSpeed(r.a, r.b, n) == -0.96 * ClosingSpeed(a, b, n) + (if aIsCue then a.spinY * 0.6 else 0.0)
  {
    CollideStages(m, a, b, aIsCue, bIsCue);
    var n := UnitNormal(m, a, b);
    var p := Separate(a, b, n, Overlap(m, a, b, aIsCue, bIsCue));
    assert ClosingSpeed(p.a, p.b, n) == ClosingSpeed(a, b, n);
    KickRebound(p.a, p.b, n, aIsCue);
  }

  /** When the pair separates after a contact: always when an object ball strikes, and, when
      the cue ball strikes, exactly when 0.6 of its vertical spin outweighs 0.96 of the
      approach. Enough back spin leaves the pair closing. */
  lemma SeparatesUnlessBackSpin(m: Numerics, a: Ball, b: Ball, aIsCue: bool, bIsCue: bool)
    requires SqrtExact(m)
    requires Approaching(m, a, b, aIsCue, bIsCue)
    ensures var n := Normal(m, a, b);
      var r := Collide(m, a, b, aIsCue, bIsCue);
      && (!aIsCue ==> ClosingSpeed(r.a, r.b, n) > 0.0)
      && (aIsCue ==> (ClosingSpeed(r.a, r.b, n) > 0.0 <==> 0.96 * ClosingSpeed(a, b, n) < 0.6 * a.spinY))
  {
    ContactRebound(m, a, b, aIsCue, bIsCue);
  }

  /** A cue ball at 0.1 with full back spin, striking a ball at rest head on: the pair closes
      faster after the contact than before it. */
  lemma BackSpinCanClose(a: Ball, b: Ball)
    requires a.vx == 0.1 && a.vy == 0.0 && a.spinY == -MAX_SPIN && b.vx == 0.0 && b.vy == 0.0
    ensures var n := Vec(1.0, 0.0);
      var r := Kick(a, b, n, -0.98 * ClosingSpeed(a, b, n), true);
      ClosingSpeed(a, b, n) < 0.0 && ClosingSpeed(r.a, r.b, n) < ClosingSpeed(a, b, n)
  {
    KickRebound(a, b, Vec(1.0, 0.0), true);
  }

  /** The impulse of a contact along a unit normal reverses the closing speed with restitution. */
  lemma KickRebound(a: Ball, b: Ball, n: Vec, aIsCue: bool)
    requires Norm2(n.x, n.y) == 1.0
    ensures var impulse := -0.98 * ClosingSpeed(a, b, n);
      var r := Kick(a, b, n, impulse, aIsCue);
      ClosingSpeed(r.a, r.b, n) == -0.96 * ClosingSpeed(a, b, n) + (if aIsCue then a.spinY * 0.6 else 0.0)
  {
    var impulse := -0.98 * ClosingSpeed(a, b, n);
    if aIsCue {
      TransferAlongNormal(a, b, n, impulse, a.spinX, a.spinY * 0.6, 0.4);
    } else {
      TransferAlongNormal(a, b, n, impulse, 0.0, 0.0, 1.0);
    }
  }

  /** Any impulse along a unit normal changes the closing speed by twice its size, plus the part
      of the handed-on spin that lies along `n`. */
  lemma TransferAlongNormal(a: Ball, b: Ball, n: Vec, impulse: real, side: real, top: real, keep: real)
    requires Norm2(n.x, n.y) == 1.0
    ensures var r := Transfer(a, b, n, impulse, side, top, keep);
      ClosingSpeed(r.a, r.b, n) == ClosingSpeed(a, b, n) + 2.0 * impulse + top
  {
    var r := Transfer(a, b, n, impulse, side, top, keep);
    var dv, ev := RelVel(a, b), RelVel(r.a, r.b);
    AlongNormal(dv.x, dv.y, n.x, n.y, side, top, impulse, ev.x, ev.y);
  }

  // ----- The pair sweep of one tick -----

  /** A coordinate of a ball that the sweep keeps in total. */
  datatype Axis = PX | PY | VX | VY

  function Get(b: Ball, c: Axis): real {
    match c
    case PX => b.x
    case PY => b.y
    case VX => b.vx
    case VY => b.vy
  }

  /** Sum of one coordinate over a run of balls. */
  function Total(s: seq<Ball>, c: Axis): real {
    if |s| == 0 then 0.0 else Get(s[0], c) + Total(s[1..], c)
  }

  /** Replacing one ball changes a total by the difference of that ball's coordinate. */
  lemma {:induction false} TotalUpdate(s: seq<Ball>, i: nat, v: Ball, c: Axis)
    requires i < |s|
    ensures Total(s[i := v], c) == Total(s, c) - Get(s[i], c) + Get(v, c)
  {
    if i == 0 {
      assert s[i := v][1..] == s[1..];
    } else {
      assert s[i := v][1..] == s[1..][i - 1 := v];
      TotalUpdate(s[1..], i - 1, v, c);
    }
  }

  predicate SpinFree(b: Ball) { b.spinX == 0.0 && b.spinY == 0.0 }

  /** What the sweep keeps, with the cue ball at index 0: the balls and their numbers, every
      object ball's spin, the sum of the positions, and, while the cue ball carries no spin, the
      sum of the velocities. */
  predicate Preserved(s: seq<Ball>, r: seq<Ball>) {
    && |r| == |s|
    && (forall k :: 0 <= k < |s| ==> r[k].number == s[k].number)
    && (forall k :: 0 < k < |s| ==> r[k].spinX == s[k].spinX && r[k].spinY == s[k].spinY)
    && Total(r, PX) == Total(s, PX) && Total(r, PY) == Total(s, PY)
    && (0 < |s| && SpinFree(s[0]) ==>
          SpinFree(r[0]) && Total(r, VX) == Total(s, VX) && Total(r, VY) == Total(s, VY))
  }

  lemma PreservedTrans(s: seq<Ball>, t: seq<Ball>, u: seq<Ball>)
    requires Preserved(s, t) && Preserved(t, u)
    ensures Preserved(s, u)
  {
  }

  /** `handleBallCollision(allBalls[i], allBalls[j])` on the sequence of all balls, in which
      index 0 is the cue ball. */
  function CollideAt(m: Numerics, s: seq<Ball>, i: nat, j: nat): (r: seq<Ball>)
    requires i < j < |s|
    ensures Preserved(s, r)
    // balls i and j become the pair as `handleBallCollision` resolves it; the rest stay put
    ensures var p := Collide(m, s[i], s[j], i == 0, j == 0); r[i] == p.a && r[j] == p.b
    ensures forall k :: 0 <= k < |s| && k != i && k != j ==> r[k] == s[k]
  {
    var p := Collide(m, s[i], s[j], i == 0, j == 0);
    var r := s[i := p.a][j := p.b];
    assert r[j] == p.b && r[i] == p.a;
    CollideAtTotal(s, i, j, p.a, p.b, PX);
    CollideAtTotal(s, i, j, p.a, p.b, PY);
    CollideAtTotal(s, i, j, p.a, p.b, VX);
    CollideAtTotal(s, i, j, p.a, p.b, VY);
    r
  }

  lemma CollideAtTotal(s: seq<Ball>, i: nat, j: nat, pa: Ball, pb: Ball, c: Axis)
    requires i < j < |s|
    ensures Total(s[i := pa][j := pb], c)
      == Total(s, c) - Get(s[i], c) - Get(s[j], c) + Get(pa, c) + Get(pb, c)
  {
    TotalUpdate(s, i, pa, c);
    TotalUpdate(s[i := pa], j, pb, c);
  }

  /** The inner loop of the sweep: pairs (i, j), (i, j + 1), ... up to the last ball. */
  function SweepRow(m: Numerics, s: seq<Ball>, i: nat, j: nat): (r: seq<Ball>)
    requires i < j <= |s|
    ensures Preserved(s, r)
    decreases |s| - j
  {
    if j == |s| then s
    else
      var s1 := CollideAt(m, s, i, j);
      var r := SweepRow(m, s1, i, j + 1);
      PreservedTrans(s, s1, r);
      r
  }

  /** No pair of the list, with the cue ball at index 0, overlaps by more than EPS. */
  ghost predicate NoContact(m: Numerics, s: seq<Ball>) {
    forall i, j :: 0 <= i < j < |s| ==> !TouchingAt(m, s, i, j)
  }

  /** Balls i and j of the list, with the cue ball at index 0, touch. */
  predicate TouchingAt(m: Numerics, s: seq<Ball>, i: nat, j: nat)
    requires i < j < |s|
  {
    Touching(m, s[i], s[j], i == 0, j == 0)
  }

  /** A row of pairs none of which touch leaves the balls as they are. */
  lemma {:induction false} QuietRow(m: Numerics, s: seq<Ball>, i: nat, j: nat)
    requires i < j <= |s| && NoContact(m, s)
    ensures SweepRow(m, s, i, j) == s
    decreases |s| - j
  {
    if j < |s| {
      assert !TouchingAt(m, s, i, j);
      assert CollideAt(m, s, i, j) == s;
      QuietRow(m, s, i, j + 1);
    }
  }

  /** The outer loop of the sweep: every pair (i, j) with i < j, in the client's order. */
  function Sweep(m: Numerics, s: seq<Ball>, i: nat): (r: seq<Ball>)
    requires i <= |s|
    ensures Preserved(s, r)
    decreases |s| - i
  {
    if i == |s| then s
    else
      var s1 := SweepRow(m, s, i, i + 1);
      var r := Sweep(m, s1, i + 1);
      PreservedTrans(s, s1, r);
      r
  }

  /** A sweep over balls none of which touch moves nothing. */
  lemma QuietSweep(m: Numerics, s: seq<Ball>)
    requires NoContact(m, s)
    ensures Sweep(m, s, 0) == s
  {
    AllRowsQuiet(m, s);
    QuietRows(m, s, 0);
  }

  /** Balls none of which touch make every row of the sweep a no-op. */
  lemma AllRowsQuiet(m: Numerics, s: seq<Ball>)
    requires NoContact(m, s)
    ensures RowsQuiet(m, s, 0)
  {
    forall k | 0 <= k < |s|
      ensures Row(m, s, k) == s
    {
      QuietRow(m, s, k, k + 1);
    }
  }

  /** The outer loop from row i on leaves the balls alone when each of its rows does. */
  lemma {:induction false} QuietRows(m: Numerics, s: seq<Ball>, i: nat)
    requires i <= |s| && RowsQuiet(m, s, i)
    ensures Sweep(m, s, i) == s
    decreases |s| - i
  {
    if i < |s| {
      var s1 := SweepRow(m, s, i, i + 1);
      assert s1 == Row(m, s, i) == s;
      SweepStep(m, s, i);
      QuietRows(m, s, i + 1);
      calc {
        Sweep(m, s, i);
        Sweep(m, s1, i + 1);
        Sweep(m, s, i + 1);
      }
    }
  }

  /** Every row of the outer loop from row i on leaves the balls alone. */
  ghost predicate RowsQuiet(m: Numerics, s: seq<Ball>, i: nat) {
    forall k :: i <= k < |s| ==> Row(m, s, k) == s
  }

  /** Row i of the outer loop: the pairs (i, j) for every j after i. */
  function Row(m: Numerics, s: seq<Ball>, i: nat): seq<Ball>
    requires i < |s|
  {
    SweepRow(m, s, i, i + 1)
  }

  /** One round of the outer loop: row i, then the rows after it. */
  lemma SweepStep(m: Numerics, s: seq<Ball>, i: nat)
    requires i < |s|
    ensures Sweep(m, s, i) == Sweep(m, SweepRow(m, s, i, i + 1), i + 1)
  {
  }

  /** With the cue ball and one object ball on the table, a tick's sweep is exactly their one
      contact, resolved by `Collide`. */
  lemma TwoBallSweep(m: Numerics, c: Ball, b: Ball)
    ensures var p := Collide(m, c, b, true, false); Sweep(m, [c, b], 0) == [p.a, p.b]
  {
    var p := Collide(m, c, b, true, false);
    var s1 := CollideAt(m, [c, b], 0, 1);
    assert s1 == [p.a, p.b];
    assert SweepRow(m, [c, b], 0, 1) == SweepRow(m, s1, 0, 2) == s1;
    assert SweepRow(m, s1, 1, 2) == s1;
    assert Sweep(m, s1, 2) == s1;
  }
}

=== FILE: loop.dfy ===
/** One animation frame (`gameLoop`) and the physics tick it runs (`updateBalls`): move every
    ball, resolve the pockets, and either end the match or, once everything is at rest, hand
    the table over. */
module GameLoop {
  import opened Numerics
  import opened World
  import opened Motion
  import opened Collision
  import opened Pockets
  import opened Turn

  // ----- The physics tick -----

  /** One object ball's move: translation with friction, then the cushions. */
  function MoveBall(t: Table, b: Ball): Ball {
    WallCollision(t, Roll(b), false, false)
  }

  /** Every object ball's move, in list order. */
  function MoveAll(t: Table, bs: seq<Ball>): (r: seq<Ball>)
    ensures |r| == |bs|
    ensures forall k :: 0 <= k < |bs| ==> r[k] == MoveBall(t, bs[k])
    ensures forall k :: 0 <= k < |bs| ==> r[k].number == bs[k].number
    decreases |bs|
  {
    if |bs| == 0 then [] else MoveAll(t, bs[..|bs| - 1]) + [MoveBall(t, bs[|bs| - 1])]
  }

  /** The cue ball's move: the spin coupling, translation with friction, then the cushions
      with the radius the spin selector dictates. */
  function MoveCue(m: Numerics, g: Game): Ball {
    WallCollision(g.table, Roll(SpinCouple(m, g.cue)), true, g.showSpinUI)
  }

  /** Every ball after its move, the cue ball in front: the list the pair sweep runs over. */
  function Moved(cue: Ball, t: Table, bs: seq<Ball>): (s: seq<Ball>)
    ensures |s| == |bs| + 1 && s[0] == cue
    ensures forall k :: 0 <= k < |bs| ==> s[k + 1].number == bs[k].number
  {
    var moved := MoveAll(t, bs);
    BehindFront(cue, moved);
    [cue] + moved
  }

  /** The moved balls after `handleBallCollision` over every pair. */
  function Swept(m: Numerics, g: Game): (r: seq<Ball>)
    ensures |r| == |g.balls| + 1
    ensures forall k :: 0 <= k < |g.balls| ==> r[1..][k].number == g.balls[k].number
    ensures NumberSum(r[1..]) == NumberSum(g.balls)
  {
    SweptFrom(m, MoveCue(m, g), g.table, g.balls)
  }

  /** The pair sweep over a moved cue ball and the moved object balls. */
  function SweptFrom(m: Numerics, cue: Ball, t: Table, bs: seq<Ball>): (r: seq<Ball>)
    ensures |r| == |bs| + 1
    ensures forall k :: 0 <= k < |bs| ==> r[1..][k].number == bs[k].number
    ensures NumberSum(r[1..]) == NumberSum(bs)
  {
    var r := Sweep(m, Moved(cue, t, bs), 0);
    TailNumbers(bs, r);
    r
  }

  /** Behind the front ball of a list come the others, in order. */
  lemma BehindFront(c: Ball, rest: seq<Ball>)
    ensures forall k :: 0 <= k < |rest| ==> ([c] + rest)[k + 1] == rest[k]
  {
  }

  /** `updateBalls`: the cue ball's spin coupling, every ball's move (the cue ball first), then
      `handleBallCollision` over every pair of the list that has the cue ball in front. */
  function UpdateBalls(m: Numerics, g: Game): (r: Game)
    // every object ball stays on the table, in its place in the list, with its number
    ensures |r.balls| == |g.balls|
    ensures forall k :: 0 <= k < |g.balls| ==> r.balls[k].number == g.balls[k].number
    ensures NumberSum(r.balls) == NumberSum(g.balls)
    // the tick moves balls and nothing else
    ensures r == g.(cue := r.cue, balls := r.balls)
  {
    var all := Swept(m, g);
    g.(cue := all[0], balls := all[1..])
  }

  /** A tick in which no two moved balls touch is just the moves: the cue ball as `MoveCue`
      leaves it and every object ball as `MoveBall` leaves it, so a ball clear of the cushions
      moves by its velocity and slows as `Roll` states. */
  lemma QuietTick(m: Numerics, g: Game)
    requires NoContact(m, Moved(MoveCue(m, g), g.table, g.balls))
    ensures UpdateBalls(m, g).cue == MoveCue(m, g)
    ensures UpdateBalls(m, g).balls == MoveAll(g.table, g.balls)
  {
    var before := Moved(MoveCue(m, g), g.table, g.balls);
    QuietSweep(m, before);
    assert Swept(m, g) == before;
    assert before[1..] == MoveAll(g.table, g.balls);
  }

  /** The object balls after the sweep carry the numbers they had before the move, position by
      position, and so the same number sum. */
  lemma TailNumbers(bs: seq<Ball>, r: seq<Ball>)
    requires |r| == |bs| + 1
    requires forall k :: 0 <= k < |bs| ==> r[k + 1].number == bs[k].number
    ensures forall k :: 0 <= k < |bs| ==> r[1..][k].number == bs[k].number
    ensures NumberSum(r[1..]) == NumberSum(bs)
  {
    NumberSumOfSameNumbers(r[1..], bs);
  }

  /** Positions and velocities of a spin-free tick: while the cue ball carries no spin, the
      collisions of one tick keep the sums of the balls' positions and velocities that the moves
      produced. */
  lemma SweepKeepsSums(m: Numerics, g: Game)
    requires SpinFree(g.cue)
    ensures var before, r := Moved(MoveCue(m, g), g.table, g.balls), UpdateBalls(m, g);
      var after := [r.cue] + r.balls;
      && Total(after, PX) == Total(before, PX) && Total(after, PY) == Total(before, PY)
      && Total(after, VX) == Total(before, VX) && Total(after, VY) == Total(before, VY)
  {
    var before := Moved(MoveCue(m, g), g.table, g.balls);
    var all := Swept(m, g);
    assert all == Sweep(m, before, 0);
    CueStaysSpinFree(m, g);
    FrontAndRest(all);
  }

  /** A non-empty list is its front ball followed by the rest. */
  lemma FrontAndRest(s: seq<Ball>)
    requires |s| > 0
    ensures [s[0]] + s[1..] == s
  {
  }

  /** A cue ball without spin has none after its move. */
  lemma CueStaysSpinFree(m: Numerics, g: Game)
    requires SpinFree(g.cue)
    ensures SpinFree(MoveCue(m, g))
  {
  }

  // ----- One frame -----

  /** The frame ends the match: the balls were moving and the last object ball went down. */
  predicate MatchEnds(m: Numerics, g: Game) {
    g.moving && |CheckPockets(m, UpdateBalls(m, g)).balls| == 0
  }

  /** The state after one frame of `gameLoop`. While balls move: tick, resolve the pockets, and
      then either end the match (stop, show the winner) or, once everything is at rest, stop and
      hand the table over: back to the local player after the opponent's shot, to the opponent
      after the local player's. */
  function Advance(m: Numerics, g: Game): (r: Game)
    // a frame without moving balls changes nothing
    ensures !g.moving ==> r == g
    // a match ends with the winner of the final scores on show
    ensures MatchEnds(m, g) ==> !r.moving && r.banner == Some(DeclareWinner(r.scores)) && |r.balls| == 0
    // the points on the table plus the points scored stay the same
    ensures r.scores.Total() + NumberSum(r.balls) == g.scores.Total() + NumberSum(g.balls)
    // only the player at the table scores
    ensures r.scores.Of(Opponent(g.currentPlayer)) == g.scores.Of(Opponent(g.currentPlayer))
    ensures r.scores.Of(g.currentPlayer) >= g.scores.Of(g.currentPlayer) || !g.moving || !NumbersPositive(g.balls)
    // a moving frame with balls left that has not come to rest ticks, pots and keeps moving
    ensures var g1 := CheckPockets(m, UpdateBalls(m, g));
      g.moving && |g1.balls| > 0 && !AtRest(g1.cue, g1.balls) ==> r == g1 && r.moving
  {
    if !g.moving then g
    else
      PottedScoresNonNegative(m, g);
      Conclude(CheckPockets(m, UpdateBalls(m, g)))
  }

  /** The end of a frame with moving balls, after the pockets: the match ends when no object
      ball is left, the table is handed over once everything is at rest, and otherwise the
      balls keep moving. */
  function Conclude(g: Game): (r: Game)
    ensures r.balls == g.balls && r.scores == g.scores
    ensures |g.balls| == 0 ==> !r.moving && r.banner == Some(DeclareWinner(g.scores))
    ensures |g.balls| > 0 && AtRest(g.cue, g.balls) ==> r == Settle(g)
    ensures |g.balls| > 0 && !AtRest(g.cue, g.balls) ==> r == g
  {
    if |g.balls| == 0 then g.(moving := false, banner := Some(DeclareWinner(g.scores)))
    else if AtRest(g.cue, g.balls) then Settle(g)
    else g
  }

  /** Everything came to rest: stop, and hand the table over, back to the local player after
      the opponent's shot or to the opponent after the local player's. */
  function Settle(g: Game): (r: Game)
    ensures !r.moving
    ensures g.awaitingOpponentShot ==> r == SwitchPlayer(g.(moving := false), true)
    ensures !g.awaitingOpponentShot && g.myTurn ==> r == SwitchPlayer(g.(moving := false), false)
    ensures !g.awaitingOpponentShot && !g.myTurn ==> r == g.(moving := false)
    ensures r.balls == g.balls && r.scores == g.scores && r.banner == g.banner && r.table == g.table
  {
    var g2 := g.(moving := false);
    if g2.awaitingOpponentShot then SwitchPlayer(g2, true)
    else if g2.myTurn then SwitchPlayer(g2, false)
    else g2
  }

  /** Every object ball carries a positive number, as the rack gives them. */
  predicate NumbersPositive(bs: seq<Ball>) {
    forall k :: 0 <= k < |bs| ==> bs[k].number > 0
  }

  /** Potting never lowers the shooter's score while all numbers are positive. */
  lemma PottedScoresNonNegative(m: Numerics, g: Game)
    ensures NumbersPositive(g.balls) ==> NumberSum(Potted(m, g.table, UpdateBalls(m, g).balls)) >= 0
  {
    if NumbersPositive(g.balls) {
      var u := UpdateBalls(m, g).balls;
      assert NumbersPositive(u);
      PottedPositive(m, g.table, u);
    }
  }

  lemma {:induction false} PottedPositive(m: Numerics, t: Table, bs: seq<Ball>)
    requires NumbersPositive(bs)
    ensures NumberSum(Potted(m, t, bs)) >= 0
    decreases |bs|
  {
    if |bs| > 0 {
      var init := bs[..|bs| - 1];
      var last := bs[|bs| - 1];
      assert NumbersPositive(init);
      PottedPositive(m, t, init);
      NumberSumAppend(Potted(m, t, init), if InPocket(m, t, last) then [last] else []);
    }
  }

  /** A frame together with whether `gameLoop` asked for the next one. */
  datatype Tick = Tick(game: Game, scheduled: bool)

  /** `gameLoop` as the client has it: the match-ending branch returns before
      `requestAnimationFrame`, so no further frame is scheduled. */
  function FrameAsWritten(m: Numerics, g: Game): (r: Tick)
    ensures r.game == Advance(m, g)
    // a still table is left alone, and the next frame is still requested
    ensures !g.moving ==> r == Tick(g, true)
    // the animation stops only on a frame that leaves no object ball and shows the winner
    ensures !r.scheduled ==> !r.game.moving && |r.game.balls| == 0 && r.game.banner.Some?
    ensures !r.scheduled <==> MatchEnds(m, g)
    ensures Worth(r.game) == Worth(g)
  {
    var a := Advance(m, g);
    var ends := MatchEnds(m, g);
    assert Worth(a) == Worth(g);
    assert ends ==> !a.moving && |a.balls| == 0 && a.banner.Some?;
    assert !g.moving ==> a == g && !ends;
    Tick(a, !ends)
  }

  /** `gameLoop` with the next frame requested on every path. */
  function Frame(m: Numerics, g: Game): (r: Tick)
    // the next frame is requested whatever this one did
    ensures r.scheduled
    ensures !g.moving ==> r.game == g
    ensures Worth(r.game) == Worth(g)
    // a frame that ends the match leaves no object ball and shows the winner
    ensures MatchEnds(m, g) ==> !r.game.moving && |r.game.balls| == 0 && r.game.banner.Some?
    ensures r.game == Advance(m, g)
  {
    var w := FrameAsWritten(m, g);
    Tick(w.game, true)
  }

  /** What one frame of the animation does: the as-written or the corrected `gameLoop`. */
  function Step(m: Numerics, fixed: bool): Game -> Tick {
    g => if fixed then Frame(m, g) else FrameAsWritten(m, g)
  }

  /** `n` frames of the animation: each frame runs only if the one before requested it. */
  function Run(step: Game -> Tick, t: Tick, n: nat): (r: Tick)
    decreases n
  {
    if n == 0 || !t.scheduled then t else Run(step, step(t.game), n - 1)
  }

  /** The winner banner's timer: `restartGame` resets the match but does not touch the
      animation. */
  function Timeout(m: Numerics, t: Tick): (r: Tick)
    // the animation is left as it was
    ensures r.scheduled == t.scheduled
    // a fresh match at rest: nothing scored, the first player at the table, no banner
    ensures r.game.scores.Total() == 0 && r.game.currentPlayer == 0 && r.game.canShoot
    ensures !r.game.moving && r.game.banner.None?
    ensures r.game == Restart(m, t.game)
  {
    Tick(Restart(m, t.game), t.scheduled)
  }

  /** With the client's `gameLoop`, the frame that pots the last ball is the last frame: after
      the restart timer, however many frames are awaited, the new match never moves, so a shot
      taken in it sets `moving` but no tick ever runs. */
  lemma MatchEndFreezesAsWritten(m: Numerics, g: Game, n: nat)
    requires MatchEnds(m, g)
    ensures var after := Timeout(m, FrameAsWritten(m, g));
      !after.scheduled && Run(Step(m, false), after, n) == after
  {
  }

  /** A step that always requests the next frame keeps the animation going forever. */
  lemma {:induction false} KeepsRunning(step: Game -> Tick, t: Tick, n: nat)
    requires t.scheduled && forall g :: step(g).scheduled
    ensures Run(step, t, n).scheduled
    decreases n
  {
    if n > 0 {
      KeepsRunning(step, step(t.game), n - 1);
    }
  }

  /** With the corrected `gameLoop`, frames keep coming however many have run, including across
      the end of a match and its restart. */
  lemma FixedKeepsRunning(m: Numerics, t: Tick, n: nat)
    requires t.scheduled
    ensures Run(Step(m, true), t, n).scheduled
  {
    KeepsRunning(Step(m, true), t, n);
  }

  /** With the corrected loop, the frame after the restart is a frame of the new match. */
  lemma FixedResumesAfterMatch(m: Numerics, g: Game)
    requires MatchEnds(m, g)
    ensures var after := Timeout(m, Frame(m, g));
      after.scheduled && Run(Step(m, true), after, 1) == Frame(m, Restart(m, Advance(m, g)))
  {
  }

  /** The step never changes the worth of a game. */
  ghost predicate KeepsWorth(step: Game -> Tick) {
    forall g :: Worth(step(g).game) == Worth(g)
  }

  /** A step that keeps the worth keeps it through any number of frames. */
  lemma {:induction false} WorthKept(step: Game -> Tick, t: Tick, n: nat)
    requires KeepsWorth(step)
    ensures Worth(Run(step, t, n).game) == Worth(t.game)
    decreases n
  {
    if n > 0 && t.scheduled {
      WorthKept(step, step(t.game), n - 1);
    }
  }

  /** Neither `gameLoop` changes the worth of a frame. */
  lemma FrameKeepsWorth(m: Numerics, fixed: bool)
    ensures KeepsWorth(Step(m, fixed))
  {
    forall g
      ensures Worth(Step(m, fixed)(g).game) == Worth(g)
    {
      var r := Advance(m, g);
      assert Step(m, fixed)(g).game == r;
    }
  }

  /** A match started by the restart timer is worth 36 points throughout: what is scored plus
      what is still on the table. */
  lemma RestartedMatchWorth36(m: Numerics, t: Tick, n: nat)
    ensures Worth(Run(Step(m, true), Timeout(m, t), n).game) == 36
  {
    TimeoutWorth(m, t);
    FrameKeepsWorth(m, true);
    WorthKept(Step(m, true), Timeout(m, t), n);
  }

  /** The restart timer leaves a game worth 36 points. */
  lemma TimeoutWorth(m: Numerics, t: Tick)
    ensures Worth(Timeout(m, t).game) == 36
  {
    RestartPoints(m, t.game);
  }

  /** A frame in which balls move, some object ball is left and something is still moving
      after the tick runs the tick, resolves the pockets and keeps the animation moving. */
  lemma KeepsRolling(m: Numerics, g: Game)
    requires g.moving
    requires var g1 := CheckPockets(m, UpdateBalls(m, g)); |g1.balls| > 0 && !AtRest(g1.cue, g1.balls)
    ensures Advance(m, g) == CheckPockets(m, UpdateBalls(m, g)) && Advance(m, g).moving
  {
  }

  /** When the local player's shot comes to rest with balls left, the opponent is at the table
      and the local player waits. */
  lemma OwnShotHandsOver(m: Numerics, g: Game)
    requires g.moving && !MatchEnds(m, g) && g.myTurn && !g.awaitingOpponentShot
    requires var g1 := CheckPockets(m, UpdateBalls(m, g)); AtRest(g1.cue, g1.balls)
    ensures var r := Advance(m, g);
      r.currentPlayer == Opponent(g.currentPlayer) && !r.myTurn && r.canShoot && !r.moving
  {
  }

  /** When the opponent's shot comes to rest with balls left, the local player is at the table. */
  lemma OpponentShotHandsBack(m: Numerics, g: Game)
    requires g.moving && !MatchEnds(m, g) && g.awaitingOpponentShot
    requires var g1 := CheckPockets(m, UpdateBalls(m, g)); AtRest(g1.cue, g1.balls)
    ensures var r := Advance(m, g);
      r.currentPlayer == Opponent(g.currentPlayer) && r.myTurn && !r.awaitingOpponentShot && r.canShoot
  {
  }
}

=== FILE: motion.dfy ===
/** Single-ball motion for one tick: rest detection, the spin-to-velocity coupling of the cue
    ball, translation with rolling friction, and the cushion response. */
module Motion {
  import opened Numerics
  import opened World

  /** A ball under the stop threshold on both axes. */
  predicate Settled(b: Ball) {
    Abs(b.vx) <= STOP_SPEED && Abs(b.vy) <= STOP_SPEED
  }

  /** The rest condition: the cue ball and every object ball are settled. */
  predicate AtRest(cue: Ball, balls: seq<Ball>) {
    Settled(cue) && forall i :: 0 <= i < |balls| ==> Settled(balls[i])
  }

  /** `allBallsStopped`: tests the cue ball, then the object balls in order, and answers false
      at the first ball over the threshold on either axis. */
  method AllBallsStopped(cue: Ball, balls: seq<Ball>) returns (stopped: bool)
    ensures stopped <==> AtRest(cue, balls)
    ensures !stopped <==> !Settled(cue) || exists i :: 0 <= i < |balls| && !Settled(balls[i])
  {
    if Abs(cue.vx) > STOP_SPEED || Abs(cue.vy) > STOP_SPEED {
      return false;
    }
    var i := 0;
    while i < |balls|
      invariant 0 <= i <= |balls|
      invariant forall k :: 0 <= k < i ==> Settled(balls[k])
    {
      if Abs(balls[i].vx) > STOP_SPEED || Abs(balls[i].vy) > STOP_SPEED {
        return false;
      }
      i := i + 1;
    }
    return true;
  }

  // ----- Spin-to-velocity coupling (cue ball only) -----

  /** The coupling acts while the cue ball is faster than 0.01 and carries some spin. */
  predicate Coupled(m: Numerics, cue: Ball) {
    Speed(m, cue) > 0.01 && (cue.spinX != 0.0 || cue.spinY != 0.0)
  }

  function Speed(m: Numerics, b: Ball): real {
    m.sqrt(Norm2(b.vx, b.vy))
  }

  /** Side spin pushes the cue ball across its heading, vertical spin along it, and both spin
      components then decay by SPIN_DAMPING. The ball does not move in this step. */
  function SpinCouple(m: Numerics, cue: Ball): (r: Ball)
    ensures Coupled(m, cue) ==> r.spinX == SPIN_DAMPING * cue.spinX && r.spinY == SPIN_DAMPING * cue.spinY
    ensures !Coupled(m, cue) ==> r == cue
    ensures r.x == cue.x && r.y == cue.y && r.number == cue.number
  {
    var speed := Speed(m, cue);
    if speed > 0.01 && (cue.spinX != 0.0 || cue.spinY != 0.0) then
      var dir := m.atan2(cue.vy, cue.vx);
      var perp := dir + m.pi / 2.0;
      var vx1 := cue.vx + m.cos(perp) * cue.spinX * SPIN_EFFECT_SIDE * (speed / 7.0);
      var vy1 := cue.vy + m.sin(perp) * cue.spinX * SPIN_EFFECT_SIDE * (speed / 7.0);
      var vx2 := vx1 + m.cos(dir) * cue.spinY * SPIN_EFFECT_VERTICAL * 0.7;
      var vy2 := vy1 + m.sin(dir) * cue.spinY * SPIN_EFFECT_VERTICAL * 0.7;
      cue.(vx := vx2, vy := vy2, spinX := cue.spinX * SPIN_DAMPING, spinY := cue.spinY * SPIN_DAMPING)
    else
      cue
  }

  /** With an exact square root, only a cue ball that is actually moving is steered. */
  lemma CouplingNeedsMotion(m: Numerics, cue: Ball)
    requires SqrtExact(m)
    requires Coupled(m, cue)
    ensures Norm2(cue.vx, cue.vy) > 0.0001
  {
    Norm2NonNegative(cue.vx, cue.vy);
    SqrtAtMost(m, Norm2(cue.vx, cue.vy), 0.01);
  }

  // ----- Translation and friction -----

  /** `v'` is `v` shrunk toward zero: same sign, strictly smaller magnitude unless zero. */
  predicate Decays(v: real, v': real) {
    && (v > 0.0 ==> 0.0 < v' < v)
    && (v < 0.0 ==> v < v' < 0.0)
    && (v == 0.0 ==> v' == 0.0)
  }

  /** One tick of free rolling: the ball moves by its velocity, then friction scales it. */
  function Roll(b: Ball): (r: Ball)
    ensures r.x == b.x + b.vx && r.y == b.y + b.vy
    ensures Decays(b.vx, r.vx) && Decays(b.vy, r.vy)
    ensures r.spinX == b.spinX && r.spinY == b.spinY && r.number == b.number
  {
    b.(x := b.x + b.vx, y := b.y + b.vy, vx := b.vx * FRICTION, vy := b.vy * FRICTION)
  }

  /** `n` ticks of free rolling, with no cushion or ball contact. */
  function Rolled(b: Ball, n: nat): Ball {
    if n == 0 then b else Roll(Rolled(b, n - 1))
  }

  /** A velocity component after `n` friction ticks. */
  function Coast(v: real, n: nat): real {
    if n == 0 then v else Coast(v, n - 1) * FRICTION
  }

  lemma {:induction false} RolledCoasts(b: Ball, n: nat)
    ensures Rolled(b, n).vx == Coast(b.vx, n) && Rolled(b, n).vy == Coast(b.vy, n)
  {
    if n > 0 {
      RolledCoasts(b, n - 1);
    }
  }

  /** Friction shrinks a velocity component at least as fast as 1 / (1 + 0.008 n). */
  lemma {:induction false} CoastDecay(v: real, n: nat)
    ensures Abs(Coast(v, n)) * (1.0 + 0.008 * n as real) <= Abs(v)
  {
    if n > 0 {
      CoastDecay(v, n - 1);
      DecayStep(Coast(v, n - 1), (n - 1) as real, Abs(v));
    }
  }

  /** One friction tick keeps the bound of `CoastDecay` one tick further on. */
  lemma DecayStep(v: real, k: real, bound: real)
    requires 0.0 <= k
    requires Abs(v) * (1.0 + 0.008 * k) <= bound
    ensures Abs(v * FRICTION) * (1.0 + 0.008 * (k + 1.0)) <= bound
  {
    var a := Abs(v);
    assert Abs(v * FRICTION) == 0.992 * a;
    var before := a * (1.0 + 0.008 * k);
    var after := (0.992 * a) * (1.0 + 0.008 * (k + 1.0));
    var slack := a * (0.000064 * (k + 1.0));
    assert 0.0 <= slack;
    assert after == before - slack;
  }

  /** A tick count after which a freely rolling ball is settled. */
  function SettleTicks(b: Ball): nat {
    ((Abs(b.vx) + Abs(b.vy)) * 1563.0).Floor + 1
  }

  /** Friction alone brings any ball under the stop threshold in finitely many ticks: the
      reason a shot always ends. */
  lemma FreeBallSettles(b: Ball)
    ensures Settled(Rolled(b, SettleTicks(b)))
  {
    var budget := (Abs(b.vx) + Abs(b.vy)) * 1563.0;
    assert budget.Floor as real > budget - 1.0;
    SettlesAfter(b, SettleTicks(b));
  }

  lemma {:induction false} SettlesAfter(b: Ball, n: nat)
    requires (Abs(b.vx) + Abs(b.vy)) * 1563.0 < n as real
    ensures Settled(Rolled(b, n))
  {
    RolledCoasts(b, n);
    CoastSettles(b.vx, n);
    CoastSettles(b.vy, n);
  }

  /** A velocity component under 1 / 1563 of the tick count has coasted under the threshold. */
  lemma CoastSettles(v: real, n: nat)
    requires 1563.0 * Abs(v) < n as real
    ensures Abs(Coast(v, n)) <= STOP_SPEED
  {
    CoastDecay(v, n);
    UnderStop(Abs(Coast(v, n)), Abs(v), n as real);
  }

  lemma UnderStop(a: real, a0: real, nr: real)
    requires 0.0 <= a && 0.0 <= nr
    requires a * (1.0 + 0.008 * nr) <= a0 && 1563.0 * a0 < nr
    ensures a <= STOP_SPEED
  {
    var f := 1.0 + 0.008 * nr;
    var d := (a - STOP_SPEED) * f;
    assert d == a * f - 0.08 - 0.00064 * nr;
    assert d < 0.0;
    NegativeFactor(a - STOP_SPEED, f);
  }

  // ----- Cushions -----

  /** The radius used against the cushions: the enlarged spin-selector radius for the cue ball
      while the selector is shown, otherwise the ball radius. */
  function WallRadius(isCue: bool, showSpinUI: bool): (r: real)
    ensures r == (if isCue && showSpinUI then 32.0 else 13.0)
  {
    if isCue && showSpinUI then SPIN_UI_RADIUS else if isCue then CUE_BALL_RADIUS else BALL_RADIUS
  }

  /** Rebound off a left or right cushion. */
  function BounceX(b: Ball, isCue: bool): Ball {
    if isCue then b.(vx := -b.vx * 0.9, spinX := b.spinX * -0.6, spinY := b.spinY * 0.95)
    else b.(vx := -b.vx * 0.9)
  }

  /** Rebound off a top or bottom cushion. */
  function BounceY(b: Ball, isCue: bool): Ball {
    if isCue then b.(vy := -b.vy * 0.9, spinX := b.spinX * 0.95, spinY := b.spinY * -0.6)
    else b.(vy := -b.vy * 0.9)
  }

  /** The table leaves room for a ball of radius `r` between opposite cushions. */
  predicate Fits(t: Table, r: real) {
    2.0 * (WALL + r) <= t.w && 2.0 * (WALL + r) <= t.h
  }

  predicate CrossesX(t: Table, b: Ball, r: real) { b.x - r < WALL || b.x + r > t.w - WALL }

  predicate CrossesY(t: Table, b: Ball, r: real) { b.y - r < WALL || b.y + r > t.h - WALL }

  /** `wallCollision`: the four cushions are tried in turn (left, right, top, bottom). */
  function WallCollision(t: Table, b: Ball, isCue: bool, showSpinUI: bool): (c: Ball)
    // on a table that fits the ball, the ball ends between the cushions
    ensures var r := WallRadius(isCue, showSpinUI);
      Fits(t, r) ==> WALL + r <= c.x <= t.w - WALL - r && WALL + r <= c.y <= t.h - WALL - r
    // a crossing ball lands on the rail it crossed: left or right, top or bottom
    ensures var r := WallRadius(isCue, showSpinUI);
      Fits(t, r) ==>
        && (b.x - r < WALL ==> c.x == WALL + r)
        && (b.x - r >= WALL && b.x + r > t.w - WALL ==> c.x == t.w - WALL - r)
        && (b.y - r < WALL ==> c.y == WALL + r)
        && (b.y - r >= WALL && b.y + r > t.h - WALL ==> c.y == t.h - WALL - r)
    // a ball clear of the cushions is untouched on that axis
    ensures var r := WallRadius(isCue, showSpinUI);
      !CrossesX(t, b, r) ==> c.x == b.x && c.vx == b.vx
    ensures var r := WallRadius(isCue, showSpinUI);
      !CrossesY(t, b, r) ==> c.y == b.y && c.vy == b.vy
    // a crossed axis reflects its velocity component, damped by 0.9
    ensures var r := WallRadius(isCue, showSpinUI);
      Fits(t, r) && CrossesX(t, b, r) ==> c.vx == -0.9 * b.vx
    ensures var r := WallRadius(isCue, showSpinUI);
      Fits(t, r) && CrossesY(t, b, r) ==> c.vy == -0.9 * b.vy
    // a cushion never adds speed
    ensures Abs(c.vx) <= Abs(b.vx) && Abs(c.vy) <= Abs(b.vy)
    // the cue ball's spin: an x cushion scales (spinX, spinY) by (-0.6, 0.95), a y cushion by
    // (0.95, -0.6), and a corner hit by both, -0.57 each
    ensures var r := WallRadius(isCue, showSpinUI);
      isCue && Fits(t, r) ==>
        && c.spinX == (if CrossesX(t, b, r) && CrossesY(t, b, r) then -0.57 * b.spinX
                       else if CrossesX(t, b, r) then -0.6 * b.spinX
                       else if CrossesY(t, b, r) then 0.95 * b.spinX
                       else b.spinX)
        && c.spinY == (if CrossesX(t, b, r) && CrossesY(t, b, r) then -0.57 * b.spinY
                       else if CrossesX(t, b, r) then 0.95 * b.spinY
                       else if CrossesY(t, b, r) then -0.6 * b.spinY
                       else b.spinY)
    // object balls take no spin from a cushion, and no ball without spin gains any
    ensures !isCue ==> c.spinX == b.spinX && c.spinY == b.spinY
    ensures b.spinX == 0.0 && b.spinY == 0.0 ==> c.spinX == 0.0 && c.spinY == 0.0
    ensures c.number == b.number
  {
    var r := WallRadius(isCue, showSpinUI);
    WallY(t, WallX(t, b, r, isCue), r, isCue)
  }

  /** The left and then the right cushion. */
  function WallX(t: Table, b: Ball, r: real, isCue: bool): (c: Ball)
    ensures 2.0 * (WALL + r) <= t.w ==> WALL + r <= c.x <= t.w - WALL - r
    // a crossing ball lands on the rail it crossed
    ensures 2.0 * (WALL + r) <= t.w && b.x - r < WALL ==> c.x == WALL + r
    ensures 2.0 * (WALL + r) <= t.w && b.x - r >= WALL && b.x + r > t.w - WALL ==> c.x == t.w - WALL - r
    ensures !CrossesX(t, b, r) ==> c == b
    ensures 2.0 * (WALL + r) <= t.w && CrossesX(t, b, r) ==>
      && c.vx == -0.9 * b.vx
      && (isCue ==> c.spinX == b.spinX * -0.6 && c.spinY == b.spinY * 0.95)
    ensures Abs(c.vx) <= Abs(b.vx)
    ensures c.y == b.y && c.vy == b.vy && c.number == b.number
    ensures !isCue ==> c.spinX == b.spinX && c.spinY == b.spinY
    ensures b.spinX == 0.0 && b.spinY == 0.0 ==> c.spinX == 0.0 && c.spinY == 0.0
  {
    var b1 := if b.x - r < WALL then BounceX(b.(x := WALL + r), isCue) else b;
    if b1.x + r > t.w - WALL then BounceX(b1.(x := t.w - WALL - r), isCue) else b1
  }

  /** The top and then the bottom cushion. */
  function WallY(t: Table, b: Ball, r: real, isCue: bool): (c: Ball)
    ensures 2.0 * (WALL + r) <= t.h ==> WALL + r <= c.y <= t.h - WALL - r
    // a crossing ball lands on the rail it crossed
    ensures 2.0 * (WALL + r) <= t.h && b.y - r < WALL ==> c.y == WALL + r
    ensures 2.0 * (WALL + r) <= t.h && b.y - r >= WALL && b.y + r > t.h - WALL ==> c.y == t.h - WALL - r
    ensures !CrossesY(t, b, r) ==> c == b
    ensures 2.0 * (WALL + r) <= t.h && CrossesY(t, b, r) ==>
      && c.vy == -0.9 * b.vy
      && (isCue ==> c.spinX == b.spinX * 0.95 && c.spinY == b.spinY * -0.6)
    ensures Abs(c.vy) <= Abs(b.vy)
    ensures c.x == b.x && c.vx == b.vx && c.number == b.number
    ensures !isCue ==> c.spinX == b.spinX && c.spinY == b.spinY
    ensures b.spinX == 0.0 && b.spinY == 0.0 ==> c.spinX == 0.0 && c.spinY == 0.0
  {
    var b1 := if b.y - r < WALL then BounceY(b.(y := WALL + r), isCue) else b;
    if b1.y + r > t.h - WALL then BounceY(b1.(y := t.h - WALL - r), isCue) else b1
  }
}

=== FILE: numerics.dfy ===
/** The browser's `Math.sqrt`, `Math.atan2`, `Math.cos`, `Math.sin` and `Math.PI`, kept
    uninterpreted: every operation that calls them takes a `Numerics` value, and a property
    that depends on what they compute names the fact it needs (`SqrtExact`, `UnitCircle`)
    as a precondition. */
module Numerics {

  datatype Numerics = Numerics(
    sqrt: real -> real,
    atan2: (real, real) -> real,
    cos: real -> real,
    sin: real -> real,
    pi: real)

  /** `Math.sqrt(x)`. Facts about exactness are stated over `Root`, so that they are brought
      into a proof only where a lemma below asks for them. */
  function Root(m: Numerics, x: real): real { m.sqrt(x) }

  /** The square root is exact and non-negative on non-negative arguments. */
  ghost predicate SqrtExact(m: Numerics) {
    forall x :: 0.0 <= x ==> 0.0 <= Root(m, x) && Sq(Root(m, x)) == x
  }

  /** Cosine and sine of one angle lie on the unit circle. */
  ghost predicate UnitCircle(m: Numerics) {
    forall a :: m.cos(a) * m.cos(a) + m.sin(a) * m.sin(a) == 1.0
  }

  function Sq(x: real): real { x * x }

  /** Squared length of the vector (a, b). */
  function Norm2(a: real, b: real): real { Sq(a) + Sq(b) }

  function Min(a: real, b: real): real { if a < b then a else b }

  function Max(a: real, b: real): real { if a < b then b else a }

  function Abs(x: real): real { if x < 0.0 then -x else x }

  lemma Norm2NonNegative(a: real, b: real)
    ensures 0.0 <= Norm2(a, b)
  {
    var aa, bb := a * a, b * b;
    assert 0.0 <= aa && 0.0 <= bb;
  }

  /** A negative product with a positive factor has a negative other factor. */
  lemma NegativeFactor(x: real, y: real)
    requires 0.0 < y && x * y < 0.0
    ensures x < 0.0
  {
  }

  /** Squaring is strictly monotone on non-negative reals. */
  lemma SquareMonotone(s: real, c: real)
    requires 0.0 <= s && 0.0 <= c
    ensures s < c <==> s * s < c * c
  {
    var ss, sc, cc := s * s, s * c, c * c;
    if s < c {
      assert ss <= sc;
      assert sc < cc;
    } else {
      assert cc <= sc;
      assert sc <= ss;
    }
  }

  /** Scaling a number scales its square by the square of the factor. */
  lemma ScaledSquare(n: real, s: real, d: real)
    requires n * s == d
    ensures Sq(n) * Sq(s) == Sq(d)
  {
  }

  /** Two parts of a non-zero whole, each the whole's multiple of its own share: the shares
      add up to one. */
  lemma Shares(p: real, q: real, P: real, Q: real, S: real)
    requires S != 0.0 && p * S == P && q * S == Q && S == P + Q
    ensures p + q == 1.0
  {
    assert p == P / S;
    assert q == Q / S;
    assert P / S + Q / S == (P + Q) / S;
  }

  /** A non-zero vector divided by its exact length is a unit vector. */
  lemma UnitDirection(dx: real, dy: real, s: real)
    requires s != 0.0 && Sq(s) == Norm2(dx, dy) && Norm2(dx, dy) != 0.0
    ensures Norm2(dx / s, dy / s) == 1.0
  {
    var nx, ny := dx / s, dy / s;
    ScaledSquare(nx, s, dx);
    ScaledSquare(ny, s, dy);
    Shares(Sq(nx), Sq(ny), Sq(dx), Sq(dy), Sq(s));
  }

  /** Comparing a root against a non-negative bound is comparing the square against the
      bound squared; this is what lets `sqrt(d) < c` tests be read as `d < c * c`. */
  lemma SqrtBelow(m: Numerics, x: real, c: real)
    requires SqrtExact(m) && 0.0 <= x && 0.0 <= c
    ensures m.sqrt(x) < c <==> x < c * c
  {
    var s := Root(m, x);
    assert 0.0 <= s && Sq(s) == x;
    SquareMonotone(s, c);
  }

  /** The non-strict form of `SqrtBelow`. */
  lemma SqrtAtMost(m: Numerics, x: real, c: real)
    requires SqrtExact(m) && 0.0 <= x && 0.0 <= c
    ensures m.sqrt(x) <= c <==> x <= c * c
  {
    var s := Root(m, x);
    assert 0.0 <= s && Sq(s) == x;
    SquareMonotone(c, s);
  }

  /** Only zero has root zero. */
  lemma SqrtZero(m: Numerics, x: real)
    requires SqrtExact(m) && 0.0 <= x
    ensures m.sqrt(x) == 0.0 <==> x == 0.0
  {
    var s := Root(m, x);
    assert 0.0 <= s && Sq(s) == x;
    SquareMonotone(0.0, s);
  }
}

=== FILE: pockets.dfy ===
/** Pocket resolution (`checkPockets`): a pocketed cue ball goes back to the break spot, and
    pocketed object balls leave the table and score for the player at the table. */
module Pockets {
  import opened Numerics
  import opened World

  /** `length2(b, p) < POCKET_RADIUS`: the ball's centre is within the pocket's radius. */
  predicate Near(m: Numerics, b: Ball, p: Vec) {
    m.sqrt(Dist2(Pos(b), p)) < POCKET_RADIUS
  }

  /** The ball is within reach of one of the six pockets. */
  predicate InPocket(m: Numerics, t: Table, b: Ball) {
    exists k :: 0 <= k < 6 && Near(m, b, Pockets(t)[k])
  }

  /** The same test without the square root: the centre lies strictly inside a pocket's circle. */
  predicate Captured(t: Table, b: Ball) {
    exists k :: 0 <= k < 6 && Dist2(Pos(b), Pockets(t)[k]) < Sq(POCKET_RADIUS)
  }

  /** With an exact square root, comparing the distance against the radius is comparing the
      squared distance against the squared radius. */
  lemma NearAgreesWithDist2(m: Numerics, b: Ball, p: Vec)
    requires SqrtExact(m)
    ensures Near(m, b, p) <==> Dist2(Pos(b), p) < Sq(POCKET_RADIUS)
  {
    Norm2NonNegative(b.x - p.x, b.y - p.y);
    SqrtBelow(m, Dist2(Pos(b), p), POCKET_RADIUS);
  }

  lemma InPocketIffCaptured(m: Numerics, t: Table, b: Ball)
    requires SqrtExact(m)
    ensures InPocket(m, t, b) <==> Captured(t, b)
  {
    forall k | 0 <= k < 6 {
      NearAgreesWithDist2(m, b, Pockets(t)[k]);
    }
  }

  /** The pocket loop for one ball: the pockets in order, stopping at the first within reach. */
  method FindPocket(m: Numerics, t: Table, b: Ball) returns (hit: bool)
    ensures hit <==> InPocket(m, t, b)
  {
    var ps := Pockets(t);
    var k := 0;
    while k < |ps|
      invariant 0 <= k <= |ps|
      invariant forall j :: 0 <= j < k ==> !Near(m, b, ps[j])
    {
      if Near(m, b, ps[k]) {
        return true;
      }
      k := k + 1;
    }
    return false;
  }

  // ----- The cue ball -----

  /** A scratched cue ball: at the break spot, at rest, without spin. */
  function Respawn(t: Table, cue: Ball): Ball {
    cue.(x := BREAK_X, y := t.h / 2.0, vx := 0.0, vy := 0.0, spinX := 0.0, spinY := 0.0)
  }

  /** The cue-ball half of `checkPockets`. */
  function Scratch(m: Numerics, t: Table, cue: Ball): (c: Ball)
    ensures InPocket(m, t, cue) ==>
      c.x == BREAK_X && c.y == t.h / 2.0 && c.vx == 0.0 && c.vy == 0.0 && c.spinX == 0.0 && c.spinY == 0.0
    ensures !InPocket(m, t, cue) ==> c == cue
  {
    if InPocket(m, t, cue) then Respawn(t, cue) else cue
  }

  /** The break spot is clear of every pocket on a table at least twice the break distance
      wide and tall enough to leave a pocket's reach between the middle and each rail: a
      respawned cue ball is not pocketed again. */
  lemma RespawnIsClear(t: Table, cue: Ball)
    requires t.w >= 2.0 * BREAK_X && t.h >= 2.0 * (WALL + POCKET_RADIUS)
    ensures !Captured(t, Respawn(t, cue))
  {
    var r := Respawn(t, cue);
    var ps := Pockets(t);
    forall k | 0 <= k < 6
      ensures Sq(POCKET_RADIUS) <= Dist2(Pos(r), ps[k])
    {
      var dx, dy := r.x - ps[k].x, r.y - ps[k].y;
      if k == 0 || k == 3 {
        FarAlong(dx, dy);
      } else if k == 2 || k == 5 {
        FarAlong(-dx, dy);
        assert Sq(-dx) == Sq(dx);
      } else if k == 1 {
        FarAlong(dy, dx);
      } else {
        FarAlong(-dy, dx);
        assert Sq(-dy) == Sq(dy);
      }
    }
  }

  /** A vector at least a pocket's reach long along one axis is at least that long. */
  lemma FarAlong(u: real, v: real)
    requires u >= POCKET_RADIUS
    ensures Sq(POCKET_RADIUS) <= Norm2(u, v)
  {
    SquareMonotone(u, POCKET_RADIUS);
    var vv := v * v;
    assert 0.0 <= vv;
  }

  // ----- The object balls -----

  /** The balls `balls.filter` keeps, in order. */
  function Survivors(m: Numerics, t: Table, bs: seq<Ball>): seq<Ball>
    decreases |bs|
  {
    if |bs| == 0 then []
    else
      var last := bs[|bs| - 1];
      Survivors(m, t, bs[..|bs| - 1]) + (if InPocket(m, t, last) then [] else [last])
  }

  /** The balls pushed onto `removed`, in order. */
  function Potted(m: Numerics, t: Table, bs: seq<Ball>): seq<Ball>
    decreases |bs|
  {
    if |bs| == 0 then []
    else
      var last := bs[|bs| - 1];
      Potted(m, t, bs[..|bs| - 1]) + (if InPocket(m, t, last) then [last] else [])
  }

  /** The positions of the balls that stay, ascending. */
  function KeptPositions(m: Numerics, t: Table, bs: seq<Ball>): seq<nat>
    decreases |bs|
  {
    if |bs| == 0 then []
    else
      KeptPositions(m, t, bs[..|bs| - 1])
        + (if InPocket(m, t, bs[|bs| - 1]) then [] else [|bs| - 1])
  }

  /** The survivors are exactly the balls out of reach of every pocket, taken in their original
      order: the k-th survivor is the ball at the k-th kept position, the kept positions ascend,
      and a position is kept exactly when its ball is not pocketed. */
  lemma {:induction false} SurvivorsInOrder(m: Numerics, t: Table, bs: seq<Ball>)
    ensures var s, ix := Survivors(m, t, bs), KeptPositions(m, t, bs);
      && |s| == |ix|
      && (forall k :: 0 <= k < |ix| ==> ix[k] < |bs| && s[k] == bs[ix[k]])
      && (forall k, l :: 0 <= k < l < |ix| ==> ix[k] < ix[l])
      && (forall i :: 0 <= i < |bs| ==> (i in ix <==> !InPocket(m, t, bs[i])))
    decreases |bs|
  {
    if |bs| > 0 {
      var init := bs[..|bs| - 1];
      SurvivorsInOrder(m, t, init);
      assert forall i :: 0 <= i < |init| ==> bs[i] == init[i];
    }
  }

  /** Every ball either stays or is potted, never both: the two lists split the table. */
  lemma {:induction false} PocketPartition(m: Numerics, t: Table, bs: seq<Ball>)
    ensures multiset(Survivors(m, t, bs)) + multiset(Potted(m, t, bs)) == multiset(bs)
    decreases |bs|
  {
    if |bs| > 0 {
      var init, last := bs[..|bs| - 1], bs[|bs| - 1];
      PocketPartition(m, t, init);
      Peel(bs);
      SplitStep(multiset(Survivors(m, t, init)), multiset(Potted(m, t, init)), multiset(init), last,
                InPocket(m, t, last));
    }
  }

  /** The balls of a non-empty run are those before the last one, plus the last. */
  lemma Peel(bs: seq<Ball>)
    requires |bs| > 0
    ensures multiset(bs) == multiset(bs[..|bs| - 1]) + multiset{bs[|bs| - 1]}
  {
    assert bs == bs[..|bs| - 1] + [bs[|bs| - 1]];
  }

  /** Sending one more ball to one side of a split keeps it a split. */
  lemma SplitStep(kept: multiset<Ball>, gone: multiset<Ball>, all: multiset<Ball>, last: Ball, potted: bool)
    requires kept + gone == all
    ensures (kept + (if potted then multiset{} else multiset{last}))
          + (gone + (if potted then multiset{last} else multiset{})) == all + multiset{last}
  {
  }

  /** The numbers on the table split the same way: those left plus those potted. */
  lemma {:induction false} PocketNumbers(m: Numerics, t: Table, bs: seq<Ball>)
    ensures NumberSum(Survivors(m, t, bs)) + NumberSum(Potted(m, t, bs)) == NumberSum(bs)
    decreases |bs|
  {
    if |bs| > 0 {
      var init := bs[..|bs| - 1];
      var last := bs[|bs| - 1];
      PocketNumbers(m, t, init);
      NumberSumAppend(Survivors(m, t, init), if InPocket(m, t, last) then [] else [last]);
      NumberSumAppend(Potted(m, t, init), if InPocket(m, t, last) then [last] else []);
    }
  }

  /** A ball is potted exactly when it was on the table and within a pocket's reach. */
  lemma {:induction false} PottedExactly(m: Numerics, t: Table, bs: seq<Ball>, b: Ball)
    ensures b in Potted(m, t, bs) <==> b in bs && InPocket(m, t, b)
    decreases |bs|
  {
    if |bs| > 0 {
      var init := bs[..|bs| - 1];
      PottedExactly(m, t, init, b);
      assert bs == init + [bs[|bs| - 1]];
    }
  }

  /** The object-ball half of `checkPockets`: the filter with its pocket loop, crediting each
      pocketed ball's number to the current player as it is removed. */
  method PocketObjectBalls(m: Numerics, t: Table, balls: seq<Ball>, scores: Scores, current: Player)
    returns (kept: seq<Ball>, removed: seq<Ball>, credited: Scores)
    ensures kept == Survivors(m, t, balls) && removed == Potted(m, t, balls)
    ensures credited.Of(current) == scores.Of(current) + NumberSum(removed)
    ensures credited.Of(Opponent(current)) == scores.Of(Opponent(current))
  {
    kept, removed, credited := [], [], scores;
    var i := 0;
    while i < |balls|
      invariant 0 <= i <= |balls|
      invariant kept == Survivors(m, t, balls[..i]) && removed == Potted(m, t, balls[..i])
      invariant credited.Of(current) == scores.Of(current) + NumberSum(removed)
      invariant credited.Of(Opponent(current)) == scores.Of(Opponent(current))
    {
      var b := balls[i];
      var hit := FindPocket(m, t, b);
      assert balls[..i + 1][..i] == balls[..i];
      if hit {
        credited := credited.Credit(current, b.number);
        removed := removed + [b];
      } else {
        kept := kept + [b];
      }
      i := i + 1;
    }
    assert balls[..i] == balls;
  }

  /** `checkPockets` on the whole state. */
  function CheckPockets(m: Numerics, g: Game): (r: Game)
    // the points still on the table plus the points scored stay the same
    ensures r.scores.Total() + NumberSum(r.balls) == g.scores.Total() + NumberSum(g.balls)
    // only the current player scores, by the numbers of the balls that went down
    ensures r.scores.Of(g.currentPlayer) == g.scores.Of(g.currentPlayer) + NumberSum(Potted(m, g.table, g.balls))
    ensures r.scores.Of(Opponent(g.currentPlayer)) == g.scores.Of(Opponent(g.currentPlayer))
    ensures r.balls == Survivors(m, g.table, g.balls) && |r.balls| <= |g.balls|
    // the cue ball goes back to the break spot when it was pocketed
    ensures r.cue == Scratch(m, g.table, g.cue)
    ensures r == g.(cue := r.cue, balls := r.balls, scores := r.scores)
  {
    var potted := Potted(m, g.table, g.balls);
    PocketPartition(m, g.table, g.balls);
    PocketNumbers(m, g.table, g.balls);
    var r := g.(cue := Scratch(m, g.table, g.cue),
                balls := Survivors(m, g.table, g.balls),
                scores := g.scores.Credit(g.currentPlayer, NumberSum(potted)));
    assert |multiset(r.balls)| <= |multiset(g.balls)|;
    r
  }
}

=== FILE: shot.dfy ===
/** The shot controls: the spin selector driven by the mouse (`mousemove`) and the release of
    a drag (`mouseup`), which fires the cue ball when the drag is long enough. */
module Shot {
  import opened Numerics
  import opened World

  /** Shortest drag that fires a shot. */
  const MIN_DRAG: real := 10.0

  /** Drag length at which the power stops growing. */
  const MAX_DRAG: real := 120.0

  /** Power per unit of drag. */
  const POWER_PER_DRAG: real := 0.22

  /** How far from the cue ball's centre the spin selector reaches. */
  const SELECTOR_REACH: real := SPIN_UI_RADIUS - 7.0

  /** `Math.max(-1, Math.min(1, v))`. */
  function Clamp(v: real): (r: real)
    ensures -1.0 <= r <= 1.0
    ensures -1.0 <= v <= 1.0 ==> r == v
    ensures v < -1.0 ==> r == -1.0
    ensures 1.0 < v ==> r == 1.0
  {
    Max(-1.0, Min(1.0, v))
  }

  /** A spin setting inside the unit square. */
  predicate SpinInRange(s: Vec) {
    -1.0 <= s.x <= 1.0 && -1.0 <= s.y <= 1.0
  }

  /** The `mousemove` handler. While the spin selector is being set, a pointer more than 0.1
      from the cue ball's centre selects its offset scaled by the selector's reach and clamped to
      the unit square, and the applied spin follows the selection; otherwise, while aiming, the
      pointer becomes the aim end. */
  function Hover(m: Numerics, g: Game, mouse: Vec): (r: Game)
    // the selection and the applied spin stay in the unit square
    ensures SpinInRange(g.spinSelect) && SpinInRange(g.spinApplied) ==>
      SpinInRange(r.spinSelect) && SpinInRange(r.spinApplied)
    // while the selector is being set the applied spin follows the selection and nothing else changes
    ensures g.showSpinUI && g.spinSetting ==>
      r == g.(spinSelect := r.spinSelect, spinApplied := r.spinSelect)
    // a pointer within 0.1 of the centre keeps the old selection; a farther one selects its
    // offset over the selector's reach, clamped per axis
    ensures g.showSpinUI && g.spinSetting ==>
      var dx, dy := mouse.x - g.cue.x, mouse.y - g.cue.y;
      && (Min(m.sqrt(Norm2(dx, dy)), SELECTOR_REACH) <= 0.1 ==> r.spinSelect == g.spinSelect)
      && (Min(m.sqrt(Norm2(dx, dy)), SELECTOR_REACH) > 0.1 ==>
            r.spinSelect == Vec(Clamp(dx / SELECTOR_REACH), Clamp(dy / SELECTOR_REACH)))
    // otherwise only the aim end can move, and only while aiming
    ensures !(g.showSpinUI && g.spinSetting) ==>
      r == g.(aimEnd := r.aimEnd) && (g.isAiming ==> r.aimEnd == mouse) && (!g.isAiming ==> r == g)
    // the ball itself never moves
    ensures r.cue == g.cue && r.balls == g.balls
  {
    if g.showSpinUI && g.spinSetting then
      var dx, dy := mouse.x - g.cue.x, mouse.y - g.cue.y;
      var dist := m.sqrt(Norm2(dx, dy));
      var len := Min(dist, SELECTOR_REACH);
      var select :=
        if len > 0.1 then Vec(Clamp(dx / SELECTOR_REACH), Clamp(dy / SELECTOR_REACH))
        else g.spinSelect;
      g.(spinSelect := select, spinApplied := select)
    else if !g.isAiming then g
    else g.(aimEnd := mouse)
  }

  /** Inside the selector's reach the selection is the pointer's offset over the reach, with no
      clamping: the selector maps its disc onto spins linearly. */
  lemma SelectorIsLinearInside(m: Numerics, g: Game, mouse: Vec)
    requires SqrtExact(m)
    requires g.showSpinUI && g.spinSetting
    requires 0.1 < m.sqrt(Norm2(mouse.x - g.cue.x, mouse.y - g.cue.y)) <= SELECTOR_REACH
    ensures Hover(m, g, mouse).spinSelect == Vec((mouse.x - g.cue.x) / 25.0, (mouse.y - g.cue.y) / 25.0)
  {
    var dx, dy := mouse.x - g.cue.x, mouse.y - g.cue.y;
    Norm2NonNegative(dx, dy);
    SqrtAtMost(m, Norm2(dx, dy), SELECTOR_REACH);
    WithinBox(dx, dy, SELECTOR_REACH);
  }

  /** A vector no longer than `c` has both components within `c` of zero. */
  lemma WithinBox(u: real, v: real, c: real)
    requires 0.0 <= c && Norm2(u, v) <= c * c
    ensures -c <= u <= c && -c <= v <= c
  {
    var au, av := Abs(u), Abs(v);
    assert Sq(au) == Sq(u) && Sq(av) == Sq(v);
    var uu, vv := Sq(u), Sq(v);
    assert 0.0 <= uu && 0.0 <= vv;
    SquareMonotone(c, au);
    SquareMonotone(c, av);
  }

  // ----- Releasing a drag -----

  /** Launch speed for a drag: proportional to its length up to MAX_DRAG, then constant. */
  function ShotPower(mag: real): (power: real)
    ensures power <= 26.4
    ensures 0.0 <= mag ==> 0.0 <= power
    ensures MIN_DRAG <= mag ==> 2.2 <= power
    ensures mag <= MAX_DRAG ==> power == POWER_PER_DRAG * mag
  {
    Min(mag, MAX_DRAG) * POWER_PER_DRAG
  }

  /** A longer drag never gives a weaker shot. */
  lemma ShotPowerMonotone(a: real, b: real)
    requires a <= b
    ensures ShotPower(a) <= ShotPower(b)
  {
  }

  /** The release fires: no spin selector, an aim in progress, the local player's turn, and a
      drag of at least MIN_DRAG. */
  predicate Fires(m: Numerics, g: Game) {
    !g.showSpinUI && g.isAiming && g.myTurn && DragLength(m, g) >= MIN_DRAG
  }

  /** The `mouseup` handler. */
  function Release(m: Numerics, g: Game): (r: Game)
    // a firing release launches the cue ball in place, with the chosen spin, and locks the cue
    ensures Fires(m, g) ==>
      && r.cue.x == g.cue.x && r.cue.y == g.cue.y
      && r.cue.spinX == g.spinApplied.x * MAX_SPIN && r.cue.spinY == g.spinApplied.y * MAX_SPIN
      && !r.canShoot && r.moving && !r.isAiming
    // anything else leaves the cue ball and the shot state alone
    ensures !Fires(m, g) ==>
      r.cue == g.cue && r.canShoot == g.canShoot && r.moving == g.moving && r.spinApplied == g.spinApplied
    // the aim ends with any release outside the spin selector; finishing a selection ends it
    ensures !g.showSpinUI ==> !r.isAiming
    ensures g.showSpinUI ==> !r.spinSetting && r.isAiming == g.isAiming
    ensures r.balls == g.balls && r.scores == g.scores && r.currentPlayer == g.currentPlayer
    // the release writes the cue ball, the aim, the selection flag and the shot state, nothing
    // else; of the cue ball only its velocity and spin
    ensures r == g.(cue := r.cue, isAiming := r.isAiming, spinSetting := r.spinSetting,
                    canShoot := r.canShoot, moving := r.moving)
    ensures r.cue == g.cue.(vx := r.cue.vx, vy := r.cue.vy, spinX := r.cue.spinX, spinY := r.cue.spinY)
  {
    if g.showSpinUI && g.spinSetting then g.(spinSetting := false)
    else if g.showSpinUI then g
    else if !g.isAiming then g
    else
      var g1 := g.(isAiming := false);
      if !g.myTurn then g1
      else
        var dx, dy := g.aimEnd.x - g.cue.x, g.aimEnd.y - g.cue.y;
        var mag := m.sqrt(Norm2(dx, dy));
        if mag < MIN_DRAG then g1
        else
          var power := ShotPower(mag);
          var angle := m.atan2(dy, dx);
          var cue := g.cue.(vx := m.cos(angle) * power, vy := m.sin(angle) * power,
                            spinX := g.spinApplied.x * MAX_SPIN, spinY := g.spinApplied.y * MAX_SPIN);
          g1.(cue := cue, canShoot := false, moving := true)
  }

  /** With an exact square root, a drag shorter than MIN_DRAG (squared length under 100) never
      fires. */
  lemma ShortDragIsNoOp(m: Numerics, g: Game)
    requires SqrtExact(m)
    requires Norm2(g.aimEnd.x - g.cue.x, g.aimEnd.y - g.cue.y) < 100.0
    ensures !Fires(m, g)
    ensures Release(m, g).cue == g.cue && Release(m, g).moving == g.moving
  {
    var dx, dy := g.aimEnd.x - g.cue.x, g.aimEnd.y - g.cue.y;
    Norm2NonNegative(dx, dy);
    SqrtBelow(m, Norm2(dx, dy), MIN_DRAG);
  }

  /** With cosine and sine on the unit circle, the launch speed is exactly the shot power, so
      never more than 26.4. */
  lemma LaunchSpeed(m: Numerics, g: Game)
    requires UnitCircle(m)
    requires Fires(m, g)
    ensures var r := Release(m, g);
      Norm2(r.cue.vx, r.cue.vy) == Sq(ShotPower(DragLength(m, g)))
      && Norm2(r.cue.vx, r.cue.vy) <= Sq(26.4)
  {
    var dx, dy := g.aimEnd.x - g.cue.x, g.aimEnd.y - g.cue.y;
    var power := ShotPower(DragLength(m, g));
    var angle := m.atan2(dy, dx);
    var c, s := m.cos(angle), m.sin(angle);
    assert Sq(c) + Sq(s) == 1.0;
    var r := Release(m, g);
    assert r.cue.vx == c * power && r.cue.vy == s * power;
    ScaledSquare(c, power, r.cue.vx);
    ScaledSquare(s, power, r.cue.vy);
    assert Sq(c) * Sq(power) + Sq(s) * Sq(power) == Sq(power);
    SquareMonotone(power, 26.4);
  }

  /** A spin setting in the unit square gives a launched spin of at most MAX_SPIN per axis. */
  lemma ReleasedSpinBounded(m: Numerics, g: Game)
    requires SpinInRange(g.spinApplied)
    requires Fires(m, g)
    ensures var r := Release(m, g);
      -MAX_SPIN <= r.cue.spinX <= MAX_SPIN && -MAX_SPIN <= r.cue.spinY <= MAX_SPIN
  {
  }
}

=== FILE: turn.dfy ===
/** Turns and matches: handing the table over (`switchPlayer`), deciding the winner
    (`declareWinner`), racking the balls (`resetBalls`) and starting a new match
    (`restartGame`). */
module Turn {
  import opened Numerics
  import opened World

  // ----- Handing over the table -----

  /** `switchPlayer(isOpponent)`: the other player is at the table, may shoot, and starts
      without spin. After the local player's own shot the turn passes to the opponent; after
      the opponent's shot it comes back. */
  function SwitchPlayer(g: Game, isOpponent: bool): (r: Game)
    ensures r.currentPlayer == Opponent(g.currentPlayer) && r.canShoot && r.spinApplied == ZERO
    // the local player's shot finished: the opponent shoots next
    ensures !isOpponent && g.myTurn ==> !r.myTurn && r.awaitingOpponentShot == g.awaitingOpponentShot
    // the opponent's shot finished: the local player shoots next
    ensures isOpponent ==> r.myTurn && !r.awaitingOpponentShot
    ensures !isOpponent && !g.myTurn ==> r.myTurn == g.myTurn && r.awaitingOpponentShot == g.awaitingOpponentShot
    // nothing on the table changes, and neither do the scores
    ensures r.cue == g.cue && r.balls == g.balls && r.scores == g.scores && r.moving == g.moving
    ensures r.banner == g.banner && r.table == g.table
    // the spin selector keeps its state: only the applied spin is cleared
    ensures r.spinSelect == g.spinSelect && r.showSpinUI == g.showSpinUI && r.spinSetting == g.spinSetting
    ensures r.isAiming == g.isAiming && r.aimEnd == g.aimEnd
  {
    var g1 := g.(currentPlayer := Opponent(g.currentPlayer), canShoot := true, spinApplied := ZERO);
    if !isOpponent && g.myTurn then g1.(myTurn := false)
    else if isOpponent then g1.(myTurn := true, awaitingOpponentShot := false)
    else g1
  }

  /** Two hand-overs bring the table back to the player who had it. */
  lemma SwitchTwiceReturns(g: Game, first: bool, second: bool)
    ensures SwitchPlayer(SwitchPlayer(g, first), second).currentPlayer == g.currentPlayer
  {
  }

  /** The opponent's finished shot followed by the local player's gives the table back to the
      opponent's side with the local player waiting again. */
  lemma RoundTrip(g: Game)
    ensures var r := SwitchPlayer(SwitchPlayer(g, true), false);
      r.currentPlayer == g.currentPlayer && !r.myTurn && !r.awaitingOpponentShot && r.canShoot
  {
  }

  // ----- The winner -----

  /** `declareWinner`: the higher score wins; equal scores are a draw. */
  function DeclareWinner(s: Scores): (o: Outcome)
    ensures o == Player1Wins <==> s.p0 > s.p1
    ensures o == Player2Wins <==> s.p1 > s.p0
    ensures o == Draw <==> s.p0 == s.p1
  {
    if s.p0 > s.p1 then Player1Wins
    else if s.p1 > s.p0 then Player2Wins
    else Draw
  }

  /** The outcome seen from the other seat. */
  function Mirror(o: Outcome): Outcome {
    match o
    case Player1Wins => Player2Wins
    case Player2Wins => Player1Wins
    case Draw => Draw
  }

  /** Exchanging the two scores exchanges the winner: the decision favours neither seat. */
  lemma WinnerSymmetric(s: Scores)
    ensures DeclareWinner(Scores(s.p1, s.p0)) == Mirror(DeclareWinner(s))
  {
  }

  /** The winner's score is at least the loser's, and a winner's is strictly more. */
  lemma WinnerLeads(s: Scores, p: Player)
    requires DeclareWinner(s) == (if p == 0 then Player1Wins else Player2Wins)
    ensures s.Of(p) > s.Of(Opponent(p))
  {
  }

  // ----- Racking -----

  /** Row and column of the k-th ball of the triangle (counting from 0), given that rows before
      `row` are already full: row r holds r + 1 balls. */
  function SlotFrom(k: nat, row: nat): (rc: (nat, nat))
    ensures rc.1 <= rc.0
    decreases k
  {
    if k <= row then (row, k) else SlotFrom(k - row - 1, row + 1)
  }

  /** Row and column of the k-th ball of the rack. */
  function Slot(k: nat): (nat, nat) { SlotFrom(k, 0) }

  /** The slot after (r, c) is the next column, or the first column of the next row when the
      row is full. */
  lemma {:induction false} SlotStep(k: nat, row: nat)
    ensures var (r, c) := SlotFrom(k, row);
      SlotFrom(k + 1, row) == if c < r then (r, c + 1) else (r + 1, 0)
    decreases k
  {
    if k > row {
      SlotStep(k - row - 1, row + 1);
    }
  }

  /** The eight balls fill the first three rows and two places of the fourth. */
  lemma RackFitsFourRows(k: nat)
    requires k < BALL_COUNT
    ensures Slot(k).0 <= 3
  {
    assert Slot(0) == (0, 0) && Slot(1) == (1, 0) && Slot(2) == (1, 1);
    assert Slot(3) == (2, 0) && Slot(4) == (2, 1) && Slot(5) == (2, 2);
    assert Slot(6) == (3, 0) && Slot(7) == (3, 1);
  }

  /** The ball racked at row `row`, column `col`: the rows step towards the foot rail by a
      ball's diameter times cos(pi/6), the columns are centred on the table's middle line and
      spaced 2.1 radii apart. */
  function RackBall(m: Numerics, t: Table, row: nat, col: nat, number: int): Ball {
    var startX, startY := t.w - 220.0, t.h / 2.0;
    Ball(startX + row as real * BALL_RADIUS * 2.0 * m.cos(m.pi / 6.0),
         startY + (col as real - row as real / 2.0) * BALL_RADIUS * 2.1,
         0.0, 0.0, 0.0, 0.0, number)
  }

  /** The rack as a whole: ball k + 1 in slot k, for the eight balls. */
  function Racked(m: Numerics, t: Table): (bs: seq<Ball>)
    ensures |bs| == BALL_COUNT
  {
    seq(BALL_COUNT, k requires 0 <= k < BALL_COUNT => RackBall(m, t, Slot(k).0, Slot(k).1, k + 1))
  }

  /** The racking loop of `resetBalls`: rows 0 to 3, columns 0 to the row, numbering from 1
      and stopping once BALL_COUNT balls are placed. */
  method RackBalls(m: Numerics, t: Table) returns (balls: seq<Ball>)
    ensures balls == Racked(m, t)
  {
    balls := [];
    var idx := 1;
    var row := 0;
    while row < 4
      invariant 0 <= row <= 4 && 1 <= idx <= BALL_COUNT + 1 && |balls| == idx - 1
      invariant idx <= BALL_COUNT ==> Slot(idx - 1) == (row, 0)
      invariant forall k :: 0 <= k < |balls| ==> balls[k] == RackBall(m, t, Slot(k).0, Slot(k).1, k + 1)
    {
      var col := 0;
      while col <= row
        invariant 0 <= col <= row + 1 && 1 <= idx <= BALL_COUNT + 1 && |balls| == idx - 1
        invariant idx <= BALL_COUNT ==> Slot(idx - 1) == if col <= row then (row, col) else (row + 1, 0)
        invariant forall k :: 0 <= k < |balls| ==> balls[k] == RackBall(m, t, Slot(k).0, Slot(k).1, k + 1)
      {
        if idx > BALL_COUNT {
          break;
        }
        SlotStep(idx - 1, 0);
        balls := balls + [RackBall(m, t, row, col, idx)];
        idx := idx + 1;
        col := col + 1;
      }
      row := row + 1;
    }
    if idx <= BALL_COUNT {
      RackFitsFourRows(idx - 1);
      assert false;
    }
  }

  /** Balls numbered 1, 2, ..., n in order carry n(n+1)/2 points in all. */
  lemma {:induction false} NumberSumOfCount(bs: seq<Ball>)
    requires forall k :: 0 <= k < |bs| ==> bs[k].number == k + 1
    ensures 2 * NumberSum(bs) == |bs| * (|bs| + 1)
    decreases |bs|
  {
    if |bs| > 0 {
      NumberSumOfCount(bs[..|bs| - 1]);
    }
  }

  /** A fresh rack: eight balls numbered 1 to 8 in order, at rest, without spin, worth 36
      points in all. */
  lemma RackedBalls(m: Numerics, t: Table)
    ensures var bs := Racked(m, t);
      && (forall k :: 0 <= k < |bs| ==> bs[k].number == k + 1)
      && (forall k :: 0 <= k < |bs| ==> bs[k].vx == 0.0 && bs[k].vy == 0.0 && bs[k].spinX == 0.0 && bs[k].spinY == 0.0)
      && NumberSum(bs) == 36
  {
    NumberSumOfCount(Racked(m, t));
  }

  /** The cue ball of a fresh rack: at the break spot, at rest, without spin. */
  function FreshCue(t: Table): Ball {
    Ball(BREAK_X, t.h / 2.0, 0.0, 0.0, 0.0, 0.0, 0)
  }

  /** `resetBalls` on the whole state. */
  method ResetBalls(m: Numerics, g: Game) returns (r: Game)
    ensures r.balls == Racked(m, g.table) && r.cue == FreshCue(g.table)
    ensures r.spinApplied == ZERO && r.spinSelect == ZERO
    ensures !r.showSpinUI && !r.spinSetting && !r.moving
    ensures r.scores == g.scores && r.currentPlayer == g.currentPlayer && r.canShoot == g.canShoot
    ensures r.myTurn == g.myTurn && r.awaitingOpponentShot == g.awaitingOpponentShot
    ensures r.table == g.table && r.banner == g.banner && r.isAiming == g.isAiming && r.aimEnd == g.aimEnd
  {
    var balls := RackBalls(m, g.table);
    r := g.(balls := balls, cue := FreshCue(g.table), spinApplied := ZERO, showSpinUI := false,
            spinSelect := ZERO, spinSetting := false, moving := false);
  }

  /** The timer callback of `declareWinner`: hide the banner and run `restartGame`, which clears
      the scores, gives the table to player 1 and racks afresh. */
  function Restart(m: Numerics, g: Game): (r: Game)
    ensures r.scores == Scores(0, 0) && r.currentPlayer == 0 && r.canShoot && !r.moving
    ensures r.banner.None? && r.cue == FreshCue(g.table) && r.balls == Racked(m, g.table)
    ensures r.myTurn == g.myTurn && r.awaitingOpponentShot == g.awaitingOpponentShot
    // the rack clears the spin selection and hides the selector
    ensures r.spinApplied == ZERO && r.spinSelect == ZERO && !r.showSpinUI && !r.spinSetting
    ensures r.table == g.table && r.isAiming == g.isAiming && r.aimEnd == g.aimEnd
  {
    g.(scores := Scores(0, 0), currentPlayer := 0, canShoot := true, moving := false,
       balls := Racked(m, g.table), cue := FreshCue(g.table), spinApplied := ZERO,
       showSpinUI := false, spinSelect := ZERO, spinSetting := false, banner := None)
  }

  /** A new match starts with all 36 points on the table and none scored. */
  lemma RestartPoints(m: Numerics, g: Game)
    ensures Worth(Restart(m, g)) == 36 && Restart(m, g).scores.Total() == 0
  {
    RackedBalls(m, g.table);
  }
}

=== FILE: world.dfy ===
/** The client's state: the tuning constants, the balls, the table and its six pockets, the
    score pair, and the module-level variables of the client gathered into one `Game` record. */
module World {
  import opened Numerics

  const WALL: real := 12.0
  const BALL_RADIUS: real := 13.0
  const CUE_BALL_RADIUS: real := 13.0
  const SPIN_UI_RADIUS: real := 32.0
  const POCKET_RADIUS: real := 23.0
  const FRICTION: real := 0.992
  const BALL_COUNT: nat := 8
  const EPS: real := 0.01
  const MAX_SPIN: real := 7.0
  const SPIN_EFFECT_SIDE: real := 0.32
  const SPIN_EFFECT_VERTICAL: real := 0.30
  const SPIN_DAMPING: real := 0.97

  /** Per-axis speed under which a ball counts as stopped. */
  const STOP_SPEED: real := 0.08

  /** Where a fresh or scratched cue ball is placed along x (y is the table's middle). */
  const BREAK_X: real := 150.0

  datatype Option<T> = None | Some(value: T)

  datatype Vec = Vec(x: real, y: real)

  const ZERO: Vec := Vec(0.0, 0.0)

  /** A ball. Object balls carry zero spin; the cue ball has no number (0 here). */
  datatype Ball = Ball(x: real, y: real, vx: real, vy: real, spinX: real, spinY: real, number: int)

  function Pos(b: Ball): Vec { Vec(b.x, b.y) }

  /** `dist2`: squared distance between two points. */
  function Dist2(a: Vec, b: Vec): real {
    Norm2(a.x - b.x, a.y - b.y)
  }

  /** The canvas: width and height in table units. */
  datatype Table = Table(w: real, h: real)

  /** The corner and side pockets, in the order the client lists them. */
  function Pockets(t: Table): (ps: seq<Vec>)
    ensures |ps| == 6
  {
    [ Vec(WALL, WALL), Vec(t.w / 2.0, WALL), Vec(t.w - WALL, WALL),
      Vec(WALL, t.h - WALL), Vec(t.w / 2.0, t.h - WALL), Vec(t.w - WALL, t.h - WALL) ]
  }

  /** Index of a player: 0 or 1. */
  type Player = p: int | 0 <= p <= 1

  function Opponent(p: Player): Player { 1 - p }

  datatype Scores = Scores(p0: int, p1: int) {

    function Of(p: Player): int {
      if p == 0 then p0 else p1
    }

    /** Adds `n` to player `p`'s score; the other score is untouched. */
    function Credit(p: Player, n: int): (r: Scores)
      ensures r.Of(p) == Of(p) + n
      ensures r.Of(Opponent(p)) == Of(Opponent(p))
    {
      if p == 0 then Scores(p0 + n, p1) else Scores(p0, p1 + n)
    }

    function Total(): int { p0 + p1 }
  }

  datatype Outcome = Player1Wins | Player2Wins | Draw

  /** The client's module-level variables. `banner` is the winner message, when shown. */
  datatype Game = Game(
    table: Table,
    cue: Ball,
    balls: seq<Ball>,
    scores: Scores,
    currentPlayer: Player,
    canShoot: bool,
    moving: bool,
    myTurn: bool,
    awaitingOpponentShot: bool,
    isAiming: bool,
    aimEnd: Vec,
    showSpinUI: bool,
    spinSetting: bool,
    spinSelect: Vec,
    spinApplied: Vec,
    banner: Option<Outcome>)

  /** Points on the table plus points scored. */
  function Worth(g: Game): int { g.scores.Total() + NumberSum(g.balls) }

  /** Length of the drag from the cue ball to the aim end. */
  function DragLength(m: Numerics, g: Game): real {
    m.sqrt(Norm2(g.aimEnd.x - g.cue.x, g.aimEnd.y - g.cue.y))
  }

  /** Sum of the numbers of a run of balls, accumulated left to right. */
  function NumberSum(bs: seq<Ball>): int
    decreases |bs|
  {
    if |bs| == 0 then 0 else NumberSum(bs[..|bs| - 1]) + bs[|bs| - 1].number
  }

  /** Balls that carry the same numbers, position by position, have the same number sum. */
  lemma {:induction false} NumberSumOfSameNumbers(a: seq<Ball>, b: seq<Ball>)
    requires |a| == |b|
    requires forall k :: 0 <= k < |a| ==> a[k].number == b[k].number
    ensures NumberSum(a) == NumberSum(b)
  {
    if |a| > 0 {
      NumberSumOfSameNumbers(a[..|a| - 1], b[..|b| - 1]);
    }
  }

  /** The number sum of a concatenation is the sum of the parts. */
  lemma {:induction false} NumberSumAppend(a: seq<Ball>, b: seq<Ball>)
    ensures NumberSum(a + b) == NumberSum(a) + NumberSum(b)
    decreases |b|
  {
    if |b| == 0 {
      assert a + b == a;
    } else {
      assert (a + b)[..|a + b| - 1] == a + b[..|b| - 1];
      NumberSumAppend(a, b[..|b| - 1]);
    }
  }
}
